=== FILE: README.md ===
# Four small PyQt tools, modelled in Dafny

This project models the computational core of four small desktop tools:

- **Number_8.py, the L-system viewer.** It loads an L-system grammar from a text file:
  - line 1 is the name;
  - line 2 is a symmetry count, giving a turn angle of 360/count;
  - line 3 is the axiom;
  - later lines are rules of the form `symbol replacement`.

  It evolves the axiom by parallel rewriting and keeps every generation in a history. It moves back and forth through that history and draws the selected generation with a turtle. The turtle understands `F`/`G` (draw), `f` (move), `+`/`-` (turn), and `[`/`]` (push/pop).
- **Number_1.py, the number analyser.** It splits a text on whitespace and keeps the tokens Python's `int()` accepts. It records their minimum, maximum and mean, and refuses to save when nothing was analysed.
- **Number_5.py, the flag generator.** It asks for a stripe count (a spin box limited to 3..12) and draws a random color for each stripe. It splits a 600×400 flag into horizontal stripes of height `400 // n`, and the last stripe takes the remainder.
- **Number_3.py, the image editor.** It crops a loaded picture to a square and keeps a rotation angle modulo 360 that turns in steps of ±90. It filters pixels to a single color channel or to grayscale.

Modules:

- **`Wrappers`:** `Option`, `Result`, and `Reported(state, error)`. `Reported` is how a UI method that shows an error dialog and returns is modelled: the object's state after the call, plus the error that was shown, if any.
- **`PyText`:** the Python string semantics the tools rely on:
  - `str.isspace`, `str.strip` and `str.split()`;
  - `" ".join`;
  - `int()` on a token, with sign, underscores and surrounding whitespace;
  - a decimal printer, and the round trip between it and `int()`.
- **`Grammar`:** the `LSystem` class, which covers loading, rewriting, evolving, selecting a step and the accessors.
- **`Turtle`:** the drawing loop of `paintEvent`, independent of geometry. Moving forward is a caller-supplied function `advance(position, heading)`. This hides the trigonometry and the line length.
- **`Scenarios`:** concrete runs:
  - the Koch curve;
  - a doubling grammar;
  - malformed files;
  - branching and a stray `]`.
- **`NumberAnalyzer`, `Colors`, `FlagGenerator`, `ImageEditor`:** the other three tools.

Each tool's state is an immutable datatype. Each UI callback is a function from the old state to the new one.

## Behaviour of the code worth knowing

- **`set_step` with an index out of range.** `set_step` ignores an index outside the history (Number_8.py:64), so the state is unchanged. `Grammar.SetStep` does the same.
- **The name on a failed load.** The loader overwrites the name with line 1 (Number_8.py:29) before it converts the count (line 30). So a count that is not an integer, or is zero, fails with the new name already stored. `Grammar.Load` states this.
- **Negative counts.** A negative symmetry count is accepted and gives a negative turn angle (Number_8.py:30; `Scenarios.NegativeCountLoads`).
- **What `evolve` rewrites.** `evolve` rewrites `current_string`, not the newest entry of the history (Number_8.py:54, 59-60). After stepping back with `set_step`, evolving appends a rewrite of an older generation. The history then stops being a chain of rewrites (`Scenarios.EvolveAfterSteppingBack`).
- **What the turtle emits.** It only draws lines (Number_8.py:128). Pen-up moves emit nothing, so the model's output is a list of segments.

## Model

| member | source | states |
|---|---|---|
| `PyText.Strip` | Number_8.py:24 | reference definition of `str.strip()` with no argument: leading and trailing `isspace` characters removed. `StripSpec` states its meaning |
| `PyText.Split` | Number_1.py:55 | reference definition of `str.split()` with no argument: maximal runs of non-whitespace characters, left to right. `SplitTokens`, `SplitKeepsCharacters` and `SplitJoin` state its meaning |
| `PyText.ParseInt` | Number_1.py:61 | reference definition of base-10 `int()` on a string: an optional sign and digits with single underscores between them, surrounded by whitespace. Anything else is `None`, standing for `ValueError`. Only ASCII digits are modelled, as recorded under Left out. Also used at Number_8.py:30. `ParseShow` states its round trip |
| `PyText.StripSpec` | Number_8.py:24 | `strip()` returns a contiguous slice of its input with only whitespace cut away on either side. The result starts and ends with non-whitespace, and it is empty exactly when the input is all whitespace |
| `PyText.SplitTokens` | Number_1.py:55 | every word produced by `split()` is non-empty and contains no whitespace |
| `PyText.SplitKeepsCharacters` | Number_1.py:55 | concatenating the words of `split()` gives back exactly the input's non-whitespace characters, in order |
| `PyText.SplitJoin` | Number_1.py:55 | joining non-empty, whitespace-free words with single spaces and splitting again returns the same words |
| `PyText.ParseShow` | Number_1.py:61 | `int()` applied to the decimal text of any integer, negative ones included, returns that integer |
| `Grammar.Fresh` | Number_8.py:11-18 | reference definition of the state after `LSystem()`: empty name, axiom and rules, angle 0, history `[""]`, step 0 |
| `Grammar.NonBlankLines` | Number_8.py:24 | reference definition of `[line.strip() for line in file if line.strip()]`, never longer than the file. `NonBlankLinesTrimmed`, `NonBlankLinesOfTrimmed` and `NonBlankLinesAppend` state its meaning |
| `Grammar.NonBlankLinesTrimmed` | Number_8.py:24 | every line kept by the loader is non-empty and has no surrounding whitespace |
| `Grammar.NonBlankLinesOfTrimmed` | Number_8.py:24 | a file whose lines are all non-empty and already stripped is kept line for line |
| `Grammar.NonBlankLinesAppend` | Number_8.py:24 | filtering blank lines works line by line, so it distributes over concatenation of files |
| `Grammar.RuleKey` | Number_8.py:37-38 | reference definition of the key: the text before the first space, stripped |
| `Grammar.RuleValue` | Number_8.py:37-38 | reference definition of the replacement: the text after the first space, stripped |
| `Grammar.ParseRules` | Number_8.py:32-38 | reference definition of the rule table: rule lines are read in order, a line without a space is skipped, and a later line overwrites an earlier key. Its meaning is stated by `ParseRulesKeys` and `ParseRulesLastWins` |
| `Grammar.SpaceIndex` | Number_8.py:36-37 | `split(' ', 1)` cuts a rule line at its first space: the index points at a space, and no earlier character is one |
| `Grammar.ParseRulesKeys` | Number_8.py:35-38 | a symbol has a rule exactly when some rule line (one containing a space) after the axiom has that symbol as its key. Lines without a space are skipped |
| `Grammar.ParseRulesLastWins` | Number_8.py:35-38 | when several rule lines share a key, the last one's replacement is stored |
| `Grammar.Load` | Number_8.py:20-48 | each of the three errors has its own if-and-only-if condition:<br>• fewer than three non-blank lines gives TooFewLines and leaves the state untouched;<br>• a count line that `int()` rejects gives SymmetryNotInteger;<br>• a count of zero gives ZeroSymmetry.<br>On both count errors the name has become line 1 and nothing else changed. On success: name, axiom, rules from the later lines, angle × count = 360, history `[axiom]`, step 0 |
| `Grammar.Image` | Number_8.py:55-58 | reference definition of what one character becomes: `rules[char]` when the character is a key, the character itself otherwise |
| `Grammar.Rewrite` | Number_8.py:53-58 | reference definition of one rewriting pass: each character is replaced by its rule's replacement or kept, left to right. `RewriteString` is proved equal to it, and the `Rewrite…` lemmas state its properties |
| `Grammar.Iterate` | Number_8.py:52-59 | reference definition of `k` successive passes, against which `Evolve` states each new generation |
| `Grammar.SubstituteAppend` | Number_8.py:54-58 | character-by-character substitution distributes over concatenation |
| `Grammar.RewriteAppend` | Number_8.py:54-58 | one rewriting pass over `a + b` is the pass over `a` followed by the pass over `b`, so there is no context sensitivity |
| `Grammar.RewriteChar` | Number_8.py:55-58 | a one-character string rewrites to its rule's replacement when it has one, and to itself otherwise |
| `Grammar.RewriteLength` | Number_8.py:54-58 | the rewritten length is the sum, over the characters, of each one's image length |
| `Grammar.RewriteUnruled` | Number_8.py:57-58 | a string none of whose characters has a rule is a fixed point of rewriting |
| `Grammar.RewriteIgnoresLongKeys` | Number_8.py:55 | a rule whose key is not a single character never fires, because rewriting looks up single characters |
| `Grammar.RewriteKeepsCount` | Number_8.py:54-58 | a character that has no rule and appears in no replacement occurs equally often before and after one pass |
| `Grammar.IterateKeepsCount` | Number_8.py:50-60 | the same holds for any number of passes |
| `Grammar.RewriteString` | Number_8.py:53-59 | the loop that builds `new_string` computes exactly one rewriting pass |
| `Grammar.Evolve` | Number_8.py:50-60 | `n` rounds append exactly `max(n, 0)` generations and keep the old history as a prefix. The k-th new generation is the current string rewritten k times. The current string becomes the last one, and nothing else changes |
| `Grammar.EvolveRounds` | Number_8.py:50-60 | the loop over `range(steps)` agrees with `Evolve` for every `n`, negative included |
| `Grammar.SetStep` | Number_8.py:62-66 | an index in range selects that generation. An index out of range changes nothing. The history is never touched |
| `Grammar.CurrentString` | Number_8.py:68-70 | reference definition of `get_current_string()`. `SetStepSelects` states that it returns the selected generation |
| `Grammar.MaxStep` | Number_8.py:72-74 | `get_max_steps()` is one less than the history length. On a consistent object the selected step never exceeds it |
| `Grammar.LoadStartsHistory` | Number_8.py:40-43 | after a successful load the history is the one-element chain `[axiom]`, the maximum step is 0, and the result does not depend on the previous state |
| `Grammar.EvolveExtendsHistory` | Number_8.py:50-60 | when the current string is the last generation, evolving keeps the history a chain in which each generation rewrites the previous one |
| `Grammar.SetStepSelects` | Number_8.py:62-74 | for any index up to `get_max_steps()`, selecting it makes `get_current_string()` that generation, keeps the object consistent, and is idempotent |
| `Grammar.HistoryOnlyGrows` | Number_8.py:50-66 | across any sequence of evolve and set_step calls, the history only grows, keeps its old prefix, and the grammar is unchanged |
| `Turtle.Step` | Number_8.py:123-147 | describes each character's effect:<br>• `F`/`G` emit one segment from the old position and move;<br>• `f` moves without drawing;<br>• `+`/`-` add or subtract the turn angle;<br>• `[` pushes position and heading;<br>• `]` pops the last pushed pose, or does nothing on an empty stack;<br>• any other character changes nothing |
| `Turtle.Run` | Number_8.py:118-147 | reference definition of the drawing loop from a given cursor: `Step` applied to each character in turn, with the segments concatenated. `RunAppend`, `StackDiscipline` and `BranchRestores` state its properties |
| `Turtle.Interpret` | Number_8.py:118-147 | the segments drawn from the start pose (heading −90°, empty stack): one per `F`/`G` |
| `Turtle.SegmentCount` | Number_8.py:123-129 | a run emits exactly one segment per `F` or `G` |
| `Turtle.RunAppend` | Number_8.py:123-147 | interpreting `a + b` is interpreting `a`, then continuing with `b` from the cursor where `a` ended |
| `Turtle.StackDiscipline` | Number_8.py:141-147 | on a string that never closes more branches than it opened, the stack ends with the bracket depth added on top of the original stack, which is left untouched underneath |
| `Turtle.BranchRestores` | Number_8.py:141-147 | after `[w]` with `w` balanced, the position, heading and stack are exactly those before the branch |
| `Turtle.Draw` | Number_8.py:118-147 | the drawing loop, starting at heading −90° with an empty stack, produces the segments of the interpretation, one per draw symbol |
| `Turtle.Paint` | Number_8.py:89-147 | nothing is drawn without a loaded system. Otherwise the current string is drawn with the system's turn angle |
| `Scenarios.KochLoads` | Number_8.py:20-48 | the Koch file `Koch / 4 / F / F F+F-F-F+F` loads to angle 90, axiom `F`, rule F → `F+F-F-F+F`, history `[F]` |
| `Scenarios.BlankLineDoesNotCount` | Number_8.py:24-27 | a file with two real lines and one blank line fails with TooFewLines and changes nothing |
| `Scenarios.ZeroCountFails` | Number_8.py:29-30 | a symmetry count of 0 fails, after the name has already been replaced |
| `Scenarios.FractionalCountFails` | Number_8.py:30 | a count of `4.5` is rejected by `int()` |
| `Scenarios.NegativeCountLoads` | Number_8.py:30 | a count of `-4` loads, with turn angle −90 |
| `Scenarios.KochEvolvesOnce` | Number_8.py:50-74 | one evolution of Koch gives history `[F, F+F-F-F+F]`, current string `F+F-F-F+F`, maximum step 1 |
| `Scenarios.Doubling` | Number_8.py:54-58 | with the rule A → AA, the unruled `B` survives: `AB` → `AAB` → `AAAAB` |
| `Scenarios.EvolveAfterSteppingBack` | Number_8.py:50-66 | stepping back to generation 0 and evolving appends a copy of generation 1, so the history stops being a chain of rewrites |
| `Scenarios.Corner` | Number_8.py:123-140 | `F+F` draws two segments; the second starts where the first ends and is turned by the angle |
| `Scenarios.KochSegments` | Number_8.py:123-129 | drawing the first Koch generation gives five segments |
| `Scenarios.BranchScenario` | Number_8.py:141-147 | `F[+F]F`: the branch starts where the trunk diverged, and the trunk resumes from that point with the heading it had before the branch |
| `Scenarios.StrayCloseIgnored` | Number_8.py:144-147 | `F]F` draws exactly what `FF` draws (two segments): a `]` on an empty stack is a no-op |
| `NumberAnalyzer.Initial` | Number_1.py:20-23 | reference definition of the state after `__init__`: no numbers, and min, max and average unset. `SaveAfterAnalyze` states that saving then fails |
| `NumberAnalyzer.ValidIntegers` | Number_1.py:56-65 | reference definition of the filter: the tokens `int()` accepts, converted, in their original order, never more of them than there were tokens |
| `NumberAnalyzer.ExtractIntegers` | Number_1.py:55-65 | reference definition of the whole extraction: `split()` followed by the filter. `ExtractJoinedIntegers` and `Analyze` state its meaning |
| `NumberAnalyzer.ValidIntegersMembers` | Number_1.py:59-65 | a number is kept exactly when some token parses to it with `int()` |
| `NumberAnalyzer.ValidIntegersAppend` | Number_1.py:59-65 | filtering keeps the order of the tokens and works token by token |
| `NumberAnalyzer.ExtractJoinedIntegers` | Number_1.py:55-65 | analysing a file made of the decimal texts of any list of integers, separated by spaces, recovers exactly that list |
| `NumberAnalyzer.FilterIntegers` | Number_1.py:56-65 | the loop with the `try: int()` / `except: continue` keeps exactly the parseable tokens, in order |
| `NumberAnalyzer.Min` | Number_1.py:73 | the minimum is an element of the list and no larger than any element |
| `NumberAnalyzer.Max` | Number_1.py:74 | the maximum is an element of the list and no smaller than any element |
| `NumberAnalyzer.Mean` | Number_1.py:75 | reference definition of `sum(numbers) / len(numbers)` as an exact real on a non-empty list. `MeanBetween` bounds it |
| `NumberAnalyzer.MeanBetween` | Number_1.py:73-75 | the average lies between the minimum and the maximum |
| `NumberAnalyzer.Analyze` | Number_1.py:55-75 | fails exactly when no token is an integer, and then the previous results stay. Otherwise it stores the numbers, plus a min and max that are members and bound every number, and an average between them |
| `NumberAnalyzer.SaveResults` | Number_1.py:93-97 | saving is refused exactly when one of min, max or average is missing. Otherwise the report carries those three values and the count |
| `NumberAnalyzer.SaveAfterAnalyze` | Number_1.py:67-97 | saving fails before anything is analysed, and succeeds after any successful analysis, with min ≤ average ≤ max |
| `NumberAnalyzer.FailedAnalyzeKeepsResults` | Number_1.py:67-69 | a file without integers leaves whatever could be saved before unchanged |
| `FlagGenerator.Initial` | Number_5.py:17-19 | reference definition of the state after `__init__`: no flag, count 0, no colors |
| `FlagGenerator.SpinBoxValue` | Number_5.py:31-39 | the dialog yields a count in 3..12, equal to the entry whenever the entry is in range. The dialog never returns an out-of-range value. Mapping such an entry to the nearer bound is only a modelling device that keeps the function total |
| `FlagGenerator.GenerateRandomColors` | Number_5.py:88-97 | returns `max(count, 0)` colors, each channel in 0..255 |
| `FlagGenerator.BaseHeight` | Number_5.py:54 | `400 // n` for a positive count: the largest height of which `n` copies still fit in 400 rows |
| `FlagGenerator.Stripes` | Number_5.py:52-71 | stripe i has color i and starts at `i * (400 // n)`. Every stripe but the last has height `400 // n`, and the last one absorbs `400 % n` |
| `FlagGenerator.StripesTile` | Number_5.py:61-71 | the stripes are contiguous, in order, from row 0 to row 400 |
| `FlagGenerator.EveryRowOnce` | Number_5.py:61-71 | every pixel row of the flag is covered by exactly one stripe |
| `FlagGenerator.CreateStripedFlag` | Number_5.py:45-86 | a count of zero is the only failure (division by zero), and it keeps the previous flag but stores the new colors. Otherwise the flag is 600×400, with one stripe per color, in order. For a positive count the stripes are exactly the `400 // n` partition (`Stripes`) and tile the height. For a negative count there are no stripes |
| `FlagGenerator.GenerateFlag` | Number_5.py:28-43 | a cancelled dialog changes nothing. An accepted one stores the dialog's count (3..12) and that many valid colors. It builds the 600×400 flag whose stripes are the `400 // n` partition of those colors, tiling the height |
| `ImageEditor.Initial` | Number_3.py:17-19 | reference definition of the state after `__init__`: no original or current picture, rotation 0. `RightAngleInvariant` states that it already has a right-angle rotation |
| `ImageEditor.Crop` | Number_3.py:57-61 | the cropped picture is a square whose side is the smaller dimension, and it agrees with the original on every pixel it keeps |
| `ImageEditor.CropSquare` | Number_3.py:57-61 | a square picture is not cropped, and cropping twice is cropping once |
| `ImageEditor.LoadImage` | Number_3.py:49-68 | a cancelled dialog changes nothing. A null image is an error that changes nothing. Otherwise the original and current picture are the square crop, with rotation 0 |
| `ImageEditor.RotateImage` | Number_3.py:115-119 | with a picture loaded, the new angle lies in 0..359 and is congruent to old + delta modulo 360. Without a picture nothing changes. The pictures are never touched |
| `ImageEditor.RotateLeft` | Number_3.py:121-124 | with a picture loaded, the angle goes down by 90 and wraps from 0 to 270. Without one nothing changes. The pictures are kept |
| `ImageEditor.RotateRight` | Number_3.py:126-129 | with a picture loaded, the angle goes up by 90 and wraps from 270 to 0. Without one nothing changes. The pictures are kept |
| `ImageEditor.ResetRotation` | Number_3.py:131-135 | the angle returns to 0 and the pictures are kept |
| `ImageEditor.RightAngleInvariant` | Number_3.py:115-135 | every operation keeps the rotation a multiple of 90 in 0..359 |
| `ImageEditor.LeftRightInverse` | Number_3.py:121-129 | a left turn undoes a right turn and vice versa |
| `ImageEditor.FourTurns` | Number_3.py:121-129 | four turns in the same direction return to the starting angle |
| `ImageEditor.Gray` | Number_3.py:106 | reference definition of the gray level, `(299r + 587g + 114b) div 1000` in exact integers. It differs from the source's float formula as recorded under Left out |
| `ImageEditor.MapPixel` | Number_3.py:92-109 | each filter behaves as follows:<br>• red, green and blue keep one channel and zero the others;<br>• grayscale makes the three channels equal;<br>• original and no selection keep the pixel |
| `ImageEditor.MapPixelIdempotent` | Number_3.py:92-109 | filtering a filtered pixel again changes nothing |
| `ImageEditor.MapPixelValid` | Number_3.py:104-107 | filters keep channels in 0..255, and the gray level lies between the smallest and the largest channel |
| `ImageEditor.MapImage` | Number_3.py:89-111 | the filtered image has the same size and is the pixel filter applied at every coordinate |
| `ImageEditor.ApplyColorChannel` | Number_3.py:81-113 | with the original mode or no loaded picture, the pixmap is returned as is. Otherwise every pixel is filtered and the size is kept |
| `ImageEditor.ApplyColorChannelLoop` | Number_3.py:89-113 | the nested column/row loop computes the same image as the pointwise definition |
| `ImageEditor.ApplyColorChannelIdempotent` | Number_3.py:81-113 | applying the channel filter twice gives the same image as once |

## Left out

- Qt dialogs, file reading and writing, message boxes, the status bar and widget updates are left out. The result of a file dialog and the text of a file are parameters.
- Number_1.py's `UnicodeDecodeError` branch and the generic exception branch around file reading (lines 88-91) are left out. They are I/O failures.
- The pixel geometry of the turtle is left out: cosine, sine and the line length `min(w, h) / 2^(0.3 * step)` at Number_8.py:115 and 126-133. The caller supplies the `advance` function, so the model holds for any geometry, but it does not state where a point lands.
- Turtle.Step: headings are exact reals, so a `+` followed by a `-` cancels exactly. The source keeps the heading as a float and updates it with repeated `+=` and `-=` (Number_8.py:120, 137, 140), which gathers rounding. For example, with a count of 7 and `a = 360/7`, `(-90 - a) + a` is `-90.00000000000001` in doubles. So the source's headings can drift from the model's, and no `advance` function can reproduce that drift.
- The integer truncation of coordinates in `drawLine` (Number_8.py:128) is left out. Only segment endpoints are modelled.
- The text drawn after the loop (Number_8.py:149 onward) and the empty-state message are left out.
- Grammar.Load: the turn angle is the exact real 360/count. The source's angle is the rounded float quotient `360 / int(line)` (Number_8.py:30), which loses precision. For counts near 10**320 it is a subnormal many units in the last place off, and for larger counts it is `0.0`. `int()` accepts a count of `1` followed by 400 zeros, and the source then loads angle `0.0`, so every turn does nothing. The contract's `angle × count = 360` holds of the exact real only.
- NumberAnalyzer.Analyze: the average is the exact rational mean, while Python's `sum / len` (Number_1.py:75) is a rounded float. A Python integer sum never overflows, but the true division raises `OverflowError` when `sum / len` is too large for a float. A sum beyond float range with a representable mean, such as `[10**308, 10**308]`, analyses fine. That exception is caught and shown (line 90). By then `numbers`, `min_value` and `max_value` have already been replaced (lines 72-74), while `avg_value` keeps its old value. The model does not have this partial-update path.
- PyText.ParseInt: `int()` is modelled for ASCII digits only. Python also accepts Unicode decimal digits: `int('٤')` is 4. So a count line `٤` loads with angle 90 in the source, while `Grammar.Load` reports SymmetryNotInteger. A file containing `٣` gives `[3]` in the source, while `NumberAnalyzer.Analyze` reports NoIntegersFound. In the other direction, Python refuses conversions of more than 4300 digits by default, and the model accepts them. Load and Analyze differ from the source on such inputs.
- PyText.ParseShow: the round trip is stated for the ASCII-digit `ParseInt` above. Python's default 4300-digit limit makes `int(str(n))` fail for integers with more digits.
- ImageEditor.MapPixel: the gray level is the integer `(299r + 587g + 114b) div 1000`. The source uses `int(0.299*r + 0.587*g + 0.114*b)` in floating point, which can come out one lower when the exact value is an integer.
- ImageEditor.MapPixelIdempotent: holds for the model's exact-integer gray only. With the source's floating-point gray (Number_3.py:106), the grayscale filter is not idempotent. For example, `0.299*2 + 0.587*2 + 0.114*2` is `1.9999999999999998` in doubles, so (2,2,2) grays to 1, and (2,2,3) → (2,2,2) → (1,1,1). The red, green and blue isolations, Original and no selection are idempotent in the source too.
- ImageEditor.MapPixelValid: the channel range 0..255 holds in the source as well, but the gray lower bound holds for the model's exact gray only. The source's float gray can fall one level below the smallest channel, as for (2,2,2) → 1.
- ImageEditor.ApplyColorChannelIdempotent: in Grayscale mode this holds for the model's exact gray only. Applying the source's float grayscale twice can darken pixels one level further, as `ImageEditor.MapPixelIdempotent` above shows. In the other modes it holds in the source too.
- ImageEditor.MapPixel: colors carry no alpha channel. In the source, the four filters build opaque `QColor(r, g, b)` values (Number_3.py:97, 100, 103, 107), while the fall-through branch keeps the pixel's own alpha (line 109). So a filter makes translucent pixels opaque, and the model does not show this.
- ImageEditor.RotateImage: only the stored angle is modelled. The `QTransform` rotation and scaling of the displayed pixmap (`update_image_display`) are Qt internals.
- ImageEditor.LoadImage: decoding an image file is a parameter, `Pick`. Copying the crop `pixmap.copy(0, 0, size, size)` is modelled on pixel rows.
- FlagGenerator.CreateStripedFlag: the painted `QPixmap` is modelled as its stripe list. For a negative count, `400 // n` is computed and then unused, and the flag has no stripes. The model gives the empty stripe list directly.
- FlagGenerator.GenerateRandomColors: `random.randint` is modelled as an arbitrary choice of valid colors.
- FlagGenerator.SpinBoxValue: `QInputDialog.getInt` is modelled as clamping the entered number to 3..12.
- Turtle.Paint: the guard `not self.lsystem.current_string` (Number_8.py:91) is not a separate case. Drawing the empty string already yields no segments.
- The window classes that wire buttons to these operations are left out. So are Number_2.py, Number_4.py, Number_6.py and Number_7.py, which lie outside the modelled core.

=== FILE: colors.dfy ===
/** RGB colours as `QColor(r, g, b)` holds them. */
module Colors {
  /** Channels are plain integers; `Valid` is the 0..255 range the
      applications keep them in. */
  datatype Color = Color(red: int, green: int, blue: int)

  predicate IsChannel(x: int) {
    0 <= x <= 255
  }

  predicate Valid(c: Color) {
    IsChannel(c.red) && IsChannel(c.green) && IsChannel(c.blue)
  }

  predicate AllValid(cs: seq<Color>) {
    forall i :: 0 <= i < |cs| ==> Valid(cs[i])
  }
}

=== FILE: flag_generator.dfy ===
/** The striped-flag generator of Number_5.py: a stripe count from a
    bounded spin box, one random colour per stripe, and a 600x400 flag cut
    into horizontal stripes whose last one absorbs the rounding
    remainder. */
module FlagGenerator {
  import opened Wrappers
  import opened Colors

  const FlagWidth := 600
  const FlagHeight := 400
  const MinStripes := 3
  const MaxStripes := 12

  /** One `fillRect(0, y, 600, height, color)`. */
  datatype Stripe = Stripe(color: Color, y: int, height: int)

  datatype Flag = Flag(width: int, height: int, stripes: seq<Stripe>)

  /** The generator's fields: the current flag (none before the first
      one), the stripe count and the colours drawn for it. */
  datatype Generator = Generator(currentFlag: Option<Flag>, stripesCount: int, colors: seq<Color>)

  function Initial(): Generator {
    Generator(None, 0, [])
  }

  /** `flag_height // stripes_count` with a zero count. */
  datatype FlagError = ZeroDivision

  // ---------------------------------------------------------------------
  // The count

  /** The value `QInputDialog.getInt(min=3, max=12)` hands back. The
      dialog only lets a value in 3..12 through and returns it unchanged;
      mapping an out-of-range entry to the nearer bound is not Qt
      behaviour but only keeps this function total. */
  function SpinBoxValue(entered: int): (r: int)
    ensures MinStripes <= r <= MaxStripes
    ensures MinStripes <= entered <= MaxStripes ==> r == entered
    ensures entered < MinStripes ==> r == MinStripes
    ensures entered > MaxStripes ==> r == MaxStripes
  {
    if entered < MinStripes then MinStripes
    else if entered > MaxStripes then MaxStripes
    else entered
  }

  // ---------------------------------------------------------------------
  // Colours

  /** `generate_random_colors(count)`: `count` colours (none for a count
      below one), each channel drawn from 0..255. Any such draw is
      possible; which one is left open. */
  method GenerateRandomColors(count: int) returns (colors: seq<Color>)
    ensures |colors| == (if count > 0 then count else 0)
    ensures AllValid(colors)
  {
    colors := [];
    var i := 0;
    while i < count
      invariant 0 <= i <= (if count > 0 then count else 0) && |colors| == i
      invariant AllValid(colors)
    {
      var red :| IsChannel(red);
      var green :| IsChannel(green);
      var blue :| IsChannel(blue);
      colors := colors + [Color(red, green, blue)];
      i := i + 1;
    }
  }

  // ---------------------------------------------------------------------
  // Geometry

  /** The base stripe height, `400 // n`. For a positive divisor Dafny's
      `/` is Python's floor division. */
  function BaseHeight(n: int): (r: int)
    requires n > 0
    ensures 0 <= r && n * r <= FlagHeight < n * (r + 1)
  {
    FlagHeight / n
  }

  /** The stripes for `n > 0` colours: stripe `i` starts at `i * base`
      and has the base height, except the last, which reaches the bottom
      edge. */
  function Stripes(n: int, colors: seq<Color>): (r: seq<Stripe>)
    requires 0 < n <= |colors|
    ensures |r| == n
    ensures forall i :: 0 <= i < n ==> r[i].color == colors[i] && r[i].y == i * BaseHeight(n)
    ensures forall i :: 0 <= i < n - 1 ==> r[i].height == BaseHeight(n)
    ensures r[n - 1].height == BaseHeight(n) + FlagHeight % n
  {
    var base := BaseHeight(n);
    seq(n, i requires 0 <= i < n =>
      Stripe(colors[i], i * base, if i == n - 1 then FlagHeight - i * base else base))
  }

  /** `st` lies edge to edge from `top` down to `bottom`: each stripe
      starts where the previous one ends, none has negative height. */
  predicate Tiles(st: seq<Stripe>, top: int, bottom: int)
    decreases |st|
  {
    if st == [] then top == bottom
    else st[0].y == top && st[0].height >= 0 && Tiles(st[1..], top + st[0].height, bottom)
  }

  /** Whether row `y` falls in stripe `s`. */
  predicate Covers(s: Stripe, y: int) {
    s.y <= y < s.y + s.height
  }

  /** Tiling stripes cover every row between the edges... */
  lemma {:induction false} TilesCover(st: seq<Stripe>, top: int, bottom: int, y: int)
    requires Tiles(st, top, bottom) && top <= y < bottom
    ensures exists i :: 0 <= i < |st| && Covers(st[i], y)
    decreases |st|
  {
    if y >= top + st[0].height {
      TilesCover(st[1..], top + st[0].height, bottom, y);
      var i :| 0 <= i < |st[1..]| && Covers(st[1..][i], y);
      assert Covers(st[i + 1], y);
    } else {
      assert Covers(st[0], y);
    }
  }

  /** ...nothing outside them... */
  lemma {:induction false} TilesWithin(st: seq<Stripe>, top: int, bottom: int, i: int)
    requires Tiles(st, top, bottom) && 0 <= i < |st|
    ensures top <= st[i].y && st[i].y + st[i].height <= bottom
    decreases |st|
  {
    TilesEnd(st[1..], top + st[0].height, bottom);
    if i > 0 {
      TilesWithin(st[1..], top + st[0].height, bottom, i - 1);
    }
  }

  lemma {:induction false} TilesEnd(st: seq<Stripe>, top: int, bottom: int)
    requires Tiles(st, top, bottom)
    ensures top <= bottom
    decreases |st|
  {
    if st != [] {
      TilesEnd(st[1..], top + st[0].height, bottom);
    }
  }

  /** ...and each row at most once: stripes never overlap. */
  lemma {:induction false} TilesDisjoint(st: seq<Stripe>, top: int, bottom: int, i: int, j: int, y: int)
    requires Tiles(st, top, bottom) && 0 <= i < j < |st|
    ensures !(Covers(st[i], y) && Covers(st[j], y))
    decreases |st|
  {
    if i == 0 {
      TilesWithin(st[1..], top + st[0].height, bottom, j - 1);
    } else {
      TilesDisjoint(st[1..], top + st[0].height, bottom, i - 1, j - 1, y);
    }
  }

  /** `400 == n * (400 // n) + 400 % n`, with a remainder below `n`. */
  lemma BaseHeightFacts(n: int)
    requires n > 0
    ensures n * BaseHeight(n) + FlagHeight % n == FlagHeight
    ensures 0 <= FlagHeight % n < n && BaseHeight(n) >= 0
  {
  }

  /** The suffix of the stripes from stripe `k` on tiles `[k*base, 400)`. */
  lemma {:induction false} StripesTileFrom(n: int, colors: seq<Color>, k: int)
    requires 0 < n <= |colors| && 0 <= k < n
    ensures Tiles(Stripes(n, colors)[k..], k * BaseHeight(n), FlagHeight)
    decreases n - k
  {
    var st := Stripes(n, colors);
    var base := BaseHeight(n);
    BaseHeightFacts(n);
    assert k * base + base == (k + 1) * base;
    if k == n - 1 {
      assert st[k..][1..] == [];
      assert (n - 1) * base + base + FlagHeight % n == FlagHeight;
    } else {
      StripesTileFrom(n, colors, k + 1);
      assert st[k..][1..] == st[k + 1..];
    }
  }

  /** The stripes of an `n`-stripe flag partition the rows `[0, 400)`. */
  lemma StripesTile(n: int, colors: seq<Color>)
    requires 0 < n <= |colors|
    ensures Tiles(Stripes(n, colors), 0, FlagHeight)
  {
    StripesTileFrom(n, colors, 0);
    assert Stripes(n, colors)[0..] == Stripes(n, colors);
  }

  /** Every row of the flag is painted by exactly one stripe. */
  lemma EveryRowOnce(n: int, colors: seq<Color>, y: int)
    requires 0 < n <= |colors| && 0 <= y < FlagHeight
    ensures exists i :: 0 <= i < n && Covers(Stripes(n, colors)[i], y)
    ensures forall i, j :: 0 <= i < j < n ==>
              !(Covers(Stripes(n, colors)[i], y) && Covers(Stripes(n, colors)[j], y))
  {
    var st := Stripes(n, colors);
    StripesTile(n, colors);
    TilesCover(st, 0, FlagHeight, y);
    forall i, j | 0 <= i < j < n
      ensures !(Covers(st[i], y) && Covers(st[j], y))
    {
      TilesDisjoint(st, 0, FlagHeight, i, j, y);
    }
  }

  // ---------------------------------------------------------------------
  // The operations

  /** `create_striped_flag` with the colours it drew passed in. The
      colours are stored first; a zero count then fails on the division
      and leaves the previous flag; a negative count paints nothing;
      otherwise the flag is the stripe partition. */
  function CreateStripedFlag(g: Generator, colors: seq<Color>): (r: Reported<Generator, FlagError>)
    requires |colors| == (if g.stripesCount > 0 then g.stripesCount else 0)
    ensures r.state.colors == colors && r.state.stripesCount == g.stripesCount
    ensures r.error.Some? <==> g.stripesCount == 0
    ensures r.error.Some? ==> r.state.currentFlag == g.currentFlag
    ensures r.error.None? ==>
              && r.state.currentFlag.Some?
              && r.state.currentFlag.value.width == FlagWidth
              && r.state.currentFlag.value.height == FlagHeight
              && |r.state.currentFlag.value.stripes| == |colors|
              && (forall i :: 0 <= i < |colors| ==> r.state.currentFlag.value.stripes[i].color == colors[i])
              && (g.stripesCount > 0 ==> Tiles(r.state.currentFlag.value.stripes, 0, FlagHeight))
    ensures r.error.None? ==>
              r.state.currentFlag.value.stripes ==
                (if g.stripesCount > 0 then Stripes(g.stripesCount, colors) else [])
  {
    var n := g.stripesCount;
    var drawn := g.(colors := colors);
    if n == 0 then Reported(drawn, Some(ZeroDivision))
    else if n < 0 then Reported(drawn.(currentFlag := Some(Flag(FlagWidth, FlagHeight, []))), None)
    else
      StripesTile(n, colors);
      Reported(drawn.(currentFlag := Some(Flag(FlagWidth, FlagHeight, Stripes(n, colors)))), None)
  }

  /** `generate_flag`: when the dialog is confirmed the clamped count is
      stored and a flag of that many stripes, each a valid colour, is
      made; a cancelled dialog changes nothing. */
  method GenerateFlag(g: Generator, ok: bool, entered: int) returns (r: Reported<Generator, FlagError>)
    ensures !ok ==> r == Reported(g, None)
    ensures ok ==>
              && r.error.None?
              && MinStripes <= r.state.stripesCount <= MaxStripes
              && AllValid(r.state.colors)
              && r.state.currentFlag.Some?
              && |r.state.currentFlag.value.stripes| == r.state.stripesCount
              && Tiles(r.state.currentFlag.value.stripes, 0, FlagHeight)
    ensures ok ==>
              && r.state.stripesCount == SpinBoxValue(entered)
              && |r.state.colors| == r.state.stripesCount
              && r.state.currentFlag.value == Flag(FlagWidth, FlagHeight, Stripes(r.state.stripesCount, r.state.colors))
  {
    if !ok {
      return Reported(g, None);
    }
    var counted := g.(stripesCount := SpinBoxValue(entered));
    var colors := GenerateRandomColors(counted.stripesCount);
    r := CreateStripedFlag(counted, colors);
  }
}

=== FILE: grammar.dfy ===
/** The string-rewriting half of the L-system viewer (class `LSystem` in
    Number_8.py): parsing a definition, parallel rewriting, and a history
    of generations with a selected step. The object the source mutates in
    place is a value here; every operation returns the new value. */
module Grammar {
  import opened Wrappers
  import opened PyText

  /** All fields of the source's `LSystem` object. `angle` is the turn
      angle in degrees (`360 / count`), kept as an exact real. */
  datatype LSystem = LSystem(
    name: string,
    angle: real,
    axiom: string,
    rules: map<string, string>,
    currentString: string,
    steps: seq<string>,
    currentStep: int)

  /** The object right after construction: empty text, a history holding
      one empty generation, step 0. */
  function Fresh(): LSystem {
    LSystem("", 0.0, "", map[], "", [""], 0)
  }

  /** The history is never empty and the selected step indexes into it. */
  predicate Valid(sys: LSystem) {
    |sys.steps| >= 1 && 0 <= sys.currentStep < |sys.steps|
  }

  datatype LoadError =
    | TooFewLines         // fewer than three non-blank lines
    | SymmetryNotInteger  // line two is not accepted by `int()`
    | ZeroSymmetry        // line two is zero: `360 / 0` fails

  // ---------------------------------------------------------------------
  // Parsing

  /** The stripped non-blank lines, in order. */
  function NonBlankLines(lines: seq<string>): (r: seq<string>)
    ensures |r| <= |lines|
  {
    if lines == [] then []
    else
      var l := Strip(lines[|lines| - 1]);
      NonBlankLines(lines[..|lines| - 1]) + (if l == [] then [] else [l])
  }

  /** Every kept line is non-empty with no whitespace at either end, and
      blank lines contribute nothing. */
  lemma {:induction false} NonBlankLinesTrimmed(lines: seq<string>)
    ensures forall i :: 0 <= i < |NonBlankLines(lines)| ==>
              NonBlankLines(lines)[i] != [] && Trimmed(NonBlankLines(lines)[i])
  {
    if lines != [] {
      var init := lines[..|lines| - 1];
      var l := Strip(lines[|lines| - 1]);
      NonBlankLinesTrimmed(init);
      var _ := StripSpec(lines[|lines| - 1]);
    }
  }

  /** Stripping and dropping blank lines distributes over concatenation. */
  lemma {:induction false} NonBlankLinesAppend(a: seq<string>, b: seq<string>)
    ensures NonBlankLines(a + b) == NonBlankLines(a) + NonBlankLines(b)
    decreases |b|
  {
    if b == [] {
      assert a + b == a;
    } else {
      var b' := b[..|b| - 1];
      assert (a + b)[..|a + b| - 1] == a + b';
      NonBlankLinesAppend(a, b');
    }
  }

  /** Lines that are already stripped and non-blank are all kept, in
      order and unchanged. */
  lemma {:induction false} NonBlankLinesOfTrimmed(lines: seq<string>)
    requires forall i :: 0 <= i < |lines| ==> lines[i] != [] && Trimmed(lines[i])
    ensures NonBlankLines(lines) == lines
  {
    if lines != [] {
      var init := lines[..|lines| - 1];
      NonBlankLinesOfTrimmed(init);
      StripTrimmed(lines[|lines| - 1]);
    }
  }

  /** A line defines a rule when it contains an ASCII space. */
  predicate IsRuleLine(line: string) {
    ' ' in line
  }

  /** Where `line.split(' ', 1)` cuts: the first space. */
  function SpaceIndex(line: string): (i: nat)
    requires IsRuleLine(line)
    ensures i < |line| && line[i] == ' '
    ensures forall k :: 0 <= k < i ==> line[k] != ' '
  {
    if line[0] == ' ' then 0 else 1 + SpaceIndex(line[1..])
  }

  /** The stripped text before the first space. */
  function RuleKey(line: string): string
    requires IsRuleLine(line)
  {
    Strip(line[..SpaceIndex(line)])
  }

  /** The stripped text after the first space. */
  function RuleValue(line: string): string
    requires IsRuleLine(line)
  {
    Strip(line[SpaceIndex(line) + 1..])
  }

  /** The rule table built from the rule lines, processed in order; a
      line without a space is skipped. */
  function ParseRules(lines: seq<string>): map<string, string> {
    if lines == [] then map[]
    else
      var rules := ParseRules(lines[..|lines| - 1]);
      var line := lines[|lines| - 1];
      if IsRuleLine(line) then rules[RuleKey(line) := RuleValue(line)] else rules
  }

  /** A key is in the table exactly when some rule line has it as key. */
  lemma {:induction false} ParseRulesKeys(lines: seq<string>, key: string)
    ensures key in ParseRules(lines) <==>
              exists i :: 0 <= i < |lines| && IsRuleLine(lines[i]) && RuleKey(lines[i]) == key
  {
    if lines != [] {
      var init := lines[..|lines| - 1];
      ParseRulesKeys(init, key);
      assert forall i :: 0 <= i < |init| ==> init[i] == lines[i];
    }
  }

  /** A key maps to the value of the last rule line carrying that key:
      later lines overwrite earlier ones. */
  lemma {:induction false} ParseRulesLastWins(lines: seq<string>, i: int)
    requires 0 <= i < |lines| && IsRuleLine(lines[i])
    requires forall j :: i < j < |lines| && IsRuleLine(lines[j]) ==> RuleKey(lines[j]) != RuleKey(lines[i])
    ensures RuleKey(lines[i]) in ParseRules(lines)
    ensures ParseRules(lines)[RuleKey(lines[i])] == RuleValue(lines[i])
  {
    var init := lines[..|lines| - 1];
    if i < |lines| - 1 {
      assert forall j :: 0 <= j < |init| ==> init[j] == lines[j];
      ParseRulesLastWins(init, i);
    }
  }

  /** `load_from_file` after the file has been read into `lines`. On too few
      lines nothing changes; on a bad symmetry count the name has already
      been overwritten; on success every field is replaced and the history
      restarts at the axiom. */
  function Load(sys: LSystem, lines: seq<string>): (r: Reported<LSystem, LoadError>)
    ensures r.error == Some(TooFewLines) <==> |NonBlankLines(lines)| < 3
    ensures r.error == Some(TooFewLines) ==> r.state == sys
    ensures r.error.Some? ==> r.state == sys.(name := r.state.name)
    ensures r.error == Some(SymmetryNotInteger) <==>
              |NonBlankLines(lines)| >= 3 && ParseInt(NonBlankLines(lines)[1]).None?
    ensures r.error == Some(ZeroSymmetry) <==>
              |NonBlankLines(lines)| >= 3 && ParseInt(NonBlankLines(lines)[1]) == Some(0)
    ensures r.error.Some? && r.error != Some(TooFewLines) ==>
              r.state.name == NonBlankLines(lines)[0]
    ensures r.error.None? <==>
              && |NonBlankLines(lines)| >= 3
              && ParseInt(NonBlankLines(lines)[1]).Some?
              && ParseInt(NonBlankLines(lines)[1]).value != 0
    ensures r.error.None? ==>
              var ls := NonBlankLines(lines);
              && r.state.name == ls[0]
              && r.state.angle * (ParseInt(ls[1]).value as real) == 360.0
              && r.state.axiom == ls[2]
              && r.state.rules == ParseRules(ls[3..])
              && r.state.steps == [r.state.axiom]
              && r.state.currentStep == 0
              && r.state.currentString == r.state.axiom
  {
    var ls := NonBlankLines(lines);
    if |ls| < 3 then Reported(sys, Some(TooFewLines))
    else
      var named := sys.(name := ls[0]);
      match ParseInt(ls[1])
      case None => Reported(named, Some(SymmetryNotInteger))
      case Some(count) =>
        if count == 0 then Reported(named, Some(ZeroSymmetry))
        else
          TurnAngle(count);
          Reported(LSystem(ls[0], 360.0 / (count as real), ls[2], ParseRules(ls[3..]),
                           ls[2], [ls[2]], 0), None)
  }

  /** `360 / count` turns a full circle in `count` steps. */
  lemma TurnAngle(count: int)
    requires count != 0
    ensures (360.0 / (count as real)) * (count as real) == 360.0
  {
  }

  // ---------------------------------------------------------------------
  // Rewriting

  /** What one character becomes: its rule's right-hand side, or itself.
      Only single-character keys can ever match. */
  function Image(rules: map<string, string>, c: char): string {
    if [c] in rules then rules[[c]] else [c]
  }

  /** The image of every character, as a function. */
  function ImageOf(rules: map<string, string>): char -> string {
    c => Image(rules, c)
  }

  /** Replace every character by its image under `f`, left to right. */
  function Substitute(f: char -> string, s: string): string {
    if s == [] then [] else Substitute(f, s[..|s| - 1]) + f(s[|s| - 1])
  }

  /** One parallel rewriting step, left to right. */
  function Rewrite(rules: map<string, string>, s: string): string {
    Substitute(ImageOf(rules), s)
  }

  /** `k` rewriting steps. */
  function Iterate(rules: map<string, string>, s: string, k: nat): string {
    if k == 0 then s else Rewrite(rules, Iterate(rules, s, k - 1))
  }

  /** The total length of the images of the characters of `s`. */
  function ImageLengths(rules: map<string, string>, s: string): nat {
    if s == [] then 0 else |Image(rules, s[0])| + ImageLengths(rules, s[1..])
  }

  /** Rewriting distributes over concatenation: characters are rewritten
      independently of their neighbours. */
  lemma {:induction false} SubstituteAppend(f: char -> string, a: string, b: string)
    ensures Substitute(f, a + b) == Substitute(f, a) + Substitute(f, b)
    decreases |b|
  {
    if b == [] {
      assert a + b == a;
    } else {
      var b' := b[..|b| - 1];
      var last := f(b[|b| - 1]);
      assert Substitute(f, a + b) == Substitute(f, a + b') + last by {
        assert (a + b)[..|a + b| - 1] == a + b' && (a + b)[|a + b| - 1] == b[|b| - 1];
      }
      SubstituteAppend(f, a, b');
      assert (Substitute(f, a) + Substitute(f, b')) + last == Substitute(f, a) + (Substitute(f, b') + last);
    }
  }

  lemma RewriteAppend(rules: map<string, string>, a: string, b: string)
    ensures Rewrite(rules, a + b) == Rewrite(rules, a) + Rewrite(rules, b)
  {
    SubstituteAppend(ImageOf(rules), a, b);
  }

  /** The rewrite of one character is its image. */
  lemma RewriteChar(rules: map<string, string>, c: char)
    ensures Rewrite(rules, [c]) == Image(rules, c)
  {
    var f := ImageOf(rules);
    assert [c][..0] == [];
    assert Substitute(f, [c]) == Substitute(f, []) + f(c);
  }

  /** The rewritten string is as long as the sum of the images' lengths. */
  lemma {:induction false} RewriteLength(rules: map<string, string>, s: string)
    ensures |Rewrite(rules, s)| == ImageLengths(rules, s)
    decreases |s|
  {
    if s != [] {
      assert s == [s[0]] + s[1..];
      RewriteAppend(rules, [s[0]], s[1..]);
      RewriteChar(rules, s[0]);
      RewriteLength(rules, s[1..]);
    }
  }

  /** A string none of whose characters has a rule is a fixed point. */
  lemma {:induction false} RewriteUnruled(rules: map<string, string>, s: string)
    requires forall k :: 0 <= k < |s| ==> [s[k]] !in rules
    ensures Rewrite(rules, s) == s
    decreases |s|
  {
    if s != [] {
      RewriteUnruled(rules, s[..|s| - 1]);
      assert s == s[..|s| - 1] + [s[|s| - 1]];
    }
  }

  /** A rule whose key is not a single character never fires. */
  lemma {:induction false} RewriteIgnoresLongKeys(rules: map<string, string>, key: string, value: string, s: string)
    requires |key| != 1
    ensures Rewrite(rules[key := value], s) == Rewrite(rules, s)
    decreases |s|
  {
    if s != [] {
      var c := s[|s| - 1];
      assert [c] != key;
      assert Image(rules[key := value], c) == Image(rules, c);
      RewriteIgnoresLongKeys(rules, key, value, s[..|s| - 1]);
    }
  }

  /** A symbol with no rule that no right-hand side produces. */
  predicate Inert(rules: map<string, string>, c: char) {
    [c] !in rules && forall key :: key in rules ==> c !in rules[key]
  }

  /** The number of occurrences of `c` in `s`. */
  function Count(c: char, s: string): nat {
    if s == [] then 0 else Count(c, s[..|s| - 1]) + (if s[|s| - 1] == c then 1 else 0)
  }

  lemma {:induction false} CountAppend(c: char, a: string, b: string)
    ensures Count(c, a + b) == Count(c, a) + Count(c, b)
    decreases |b|
  {
    if b == [] {
      assert a + b == a;
    } else {
      var b' := b[..|b| - 1];
      assert (a + b)[..|a + b| - 1] == a + b';
      CountAppend(c, a, b');
    }
  }

  lemma {:induction false} CountAbsent(c: char, s: string)
    requires c !in s
    ensures Count(c, s) == 0
    decreases |s|
  {
    if s != [] {
      assert c !in s[..|s| - 1] by {
        assert forall k :: 0 <= k < |s| - 1 ==> s[..|s| - 1][k] == s[k];
      }
      CountAbsent(c, s[..|s| - 1]);
    }
  }

  /** An inert symbol keeps its number of occurrences. */
  lemma {:induction false} RewriteKeepsCount(rules: map<string, string>, c: char, s: string)
    requires Inert(rules, c)
    ensures Count(c, Rewrite(rules, s)) == Count(c, s)
    decreases |s|
  {
    if s != [] {
      var init := s[..|s| - 1];
      var last := s[|s| - 1];
      RewriteKeepsCount(rules, c, init);
      CountAppend(c, Rewrite(rules, init), Image(rules, last));
      if [last] in rules {
        assert last != c;
        CountAbsent(c, rules[[last]]);
      } else {
        assert [last][..0] == [];
      }
    }
  }

  /** The same holds for any number of rewriting steps. */
  lemma {:induction false} IterateKeepsCount(rules: map<string, string>, c: char, s: string, k: nat)
    requires Inert(rules, c)
    ensures Count(c, Iterate(rules, s, k)) == Count(c, s)
  {
    if k > 0 {
      IterateKeepsCount(rules, c, s, k - 1);
      RewriteKeepsCount(rules, c, Iterate(rules, s, k - 1));
    }
  }

  /** The source's character loop: each character's image is appended to
      the new string. */
  method RewriteString(rules: map<string, string>, s: string) returns (out: string)
    ensures out == Rewrite(rules, s)
  {
    out := "";
    var i := 0;
    while i < |s|
      invariant 0 <= i <= |s|
      invariant out == Rewrite(rules, s[..i])
    {
      assert s[..i + 1][..i] == s[..i];
      out := out + Image(rules, s[i]);
      i := i + 1;
    }
    assert s[..|s|] == s;
  }

  /** `evolve(n)`: `n` rounds (none when `n <= 0`), each rewriting the
      current string and appending it to the history. The k-th new entry
      is the k-fold rewrite of the current string at call time; the old
      entries, the selected step and the grammar are untouched. */
  function Evolve(sys: LSystem, n: int): (r: LSystem)
    ensures |r.steps| == |sys.steps| + (if n > 0 then n else 0)
    ensures r.steps[..|sys.steps|] == sys.steps
    ensures forall k :: 1 <= k <= n ==>
              r.steps[|sys.steps| + k - 1] == Iterate(sys.rules, sys.currentString, k)
    ensures r.currentString == Iterate(sys.rules, sys.currentString, if n > 0 then n else 0)
    ensures r == sys.(currentString := r.currentString, steps := r.steps)
    decreases n
  {
    if n <= 0 then sys
    else
      var prev := Evolve(sys, n - 1);
      var next := Rewrite(prev.rules, prev.currentString);
      var r := prev.(currentString := next, steps := prev.steps + [next]);
      assert r.steps[..|sys.steps|] == prev.steps[..|sys.steps|];
      r
  }

  /** `set_step(i)`: selects generation `i` when it exists, otherwise
      changes nothing. The history is never touched. */
  function SetStep(sys: LSystem, i: int): (r: LSystem)
    ensures r.steps == sys.steps
    ensures 0 <= i < |sys.steps| ==> r.currentStep == i && r.currentString == sys.steps[i]
    ensures !(0 <= i < |sys.steps|) ==> r == sys
    ensures r == sys.(currentStep := r.currentStep, currentString := r.currentString)
  {
    if 0 <= i < |sys.steps| then sys.(currentStep := i, currentString := sys.steps[i]) else sys
  }

  /** `get_current_string()`. */
  function CurrentString(sys: LSystem): string {
    sys.currentString
  }

  /** `get_max_steps()`: the index of the newest generation. */
  function MaxStep(sys: LSystem): (r: int)
    ensures |sys.steps| == r + 1
    ensures Valid(sys) ==> 0 <= sys.currentStep <= r
  {
    |sys.steps| - 1
  }

  /** The source's `evolve` loop over whole rounds, using the character
      loop for each round. */
  method EvolveRounds(sys: LSystem, n: int) returns (r: LSystem)
    ensures r == Evolve(sys, n)
  {
    r := sys;
    var round := 0;
    while round < n
      invariant 0 <= round <= (if n > 0 then n else 0)
      invariant r == Evolve(sys, round)
    {
      var next := RewriteString(r.rules, r.currentString);
      r := r.(currentString := next, steps := r.steps + [next]);
      round := round + 1;
    }
    if n <= 0 {
      assert round == 0 && Evolve(sys, 0) == sys;
      assert Evolve(sys, n) == sys;
    }
  }

  // ---------------------------------------------------------------------
  // The history of generations

  /** Each generation after the first is the rewrite of the one before. */
  predicate IsHistory(rules: map<string, string>, steps: seq<string>) {
    |steps| >= 1 && forall k :: 0 < k < |steps| ==> steps[k] == Rewrite(rules, steps[k - 1])
  }

  /** A successful load leaves a valid one-entry history at step 0 whose
      newest entry is the current string; the result does not depend on
      what the object held before. */
  lemma LoadStartsHistory(sys: LSystem, other: LSystem, lines: seq<string>)
    requires Load(sys, lines).error.None?
    ensures var r := Load(sys, lines).state;
      && Valid(r) && IsHistory(r.rules, r.steps) && MaxStep(r) == 0
      && r.currentString == r.steps[|r.steps| - 1]
      && Load(other, lines) == Load(sys, lines)
  {
  }

  /** Evolving from the newest generation keeps the history a chain of
      rewrites, and the current string stays the newest generation. */
  lemma EvolveExtendsHistory(sys: LSystem, n: int)
    requires IsHistory(sys.rules, sys.steps)
    requires sys.currentString == sys.steps[|sys.steps| - 1]
    ensures IsHistory(Evolve(sys, n).rules, Evolve(sys, n).steps)
    ensures Evolve(sys, n).currentString == Evolve(sys, n).steps[|Evolve(sys, n).steps| - 1]
  {
    var r := Evolve(sys, n);
    var m := |sys.steps|;
    forall j | 0 < j < |r.steps|
      ensures r.steps[j] == Rewrite(r.rules, r.steps[j - 1])
    {
      if j >= m {
        var k := j - m + 1;
        assert r.steps[j] == Iterate(sys.rules, sys.currentString, k);
        if k > 1 {
          assert r.steps[j - 1] == Iterate(sys.rules, sys.currentString, k - 1);
        } else {
          assert r.steps[j - 1] == r.steps[..m][m - 1];
        }
      } else {
        assert r.steps[j] == r.steps[..m][j] && r.steps[j - 1] == r.steps[..m][j - 1];
      }
    }
    if n > 0 {
      assert r.steps[|r.steps| - 1] == Iterate(sys.rules, sys.currentString, n);
    } else {
      assert r == sys;
    }
  }

  /** Selecting an existing generation makes it current, keeps the object
      valid, and selecting it again changes nothing. */
  lemma SetStepSelects(sys: LSystem, i: int)
    requires Valid(sys) && 0 <= i <= MaxStep(sys)
    ensures Valid(SetStep(sys, i))
    ensures CurrentString(SetStep(sys, i)) == sys.steps[i]
    ensures SetStep(SetStep(sys, i), i) == SetStep(sys, i)
  {
  }

  /** The operations a viewing session applies to a loaded system. */
  datatype Command = EvolveBy(rounds: int) | SelectStep(index: int)

  function Replay(sys: LSystem, cmds: seq<Command>): LSystem {
    if cmds == [] then sys
    else
      var prev := Replay(sys, cmds[..|cmds| - 1]);
      match cmds[|cmds| - 1]
      case EvolveBy(n) => Evolve(prev, n)
      case SelectStep(i) => SetStep(prev, i)
  }

  /** Across any sequence of evolutions and step selections the history
      only grows: existing generations are kept, the object stays valid,
      and the grammar itself is untouched. */
  lemma {:induction false} HistoryOnlyGrows(sys: LSystem, cmds: seq<Command>)
    requires Valid(sys)
    ensures var r := Replay(sys, cmds);
      && Valid(r)
      && |r.steps| >= |sys.steps|
      && r.steps[..|sys.steps|] == sys.steps
      && r.rules == sys.rules && r.axiom == sys.axiom && r.name == sys.name && r.angle == sys.angle
  {
    if cmds != [] {
      var prev := Replay(sys, cmds[..|cmds| - 1]);
      HistoryOnlyGrows(sys, cmds[..|cmds| - 1]);
      var r := Replay(sys, cmds);
      assert r.steps[..|prev.steps|] == prev.steps;
      assert r.steps[..|sys.steps|] == prev.steps[..|sys.steps|];
    }
  }
}

=== FILE: image_editor.dfy ===
/** The image editor of Number_3.py: loading crops an image to a square,
    the rotation angle is a state machine modulo 360, and the displayed
    image can be reduced to one colour channel or to grey. */
module ImageEditor {
  import opened Wrappers
  import opened Colors

  /** A bitmap as rows of pixels: `pixels[y][x]`. */
  datatype Image = Image(width: int, height: int, pixels: seq<seq<Color>>)

  predicate WellFormed(img: Image) {
    && img.width >= 0 && img.height >= 0
    && |img.pixels| == img.height
    && forall y :: 0 <= y < img.height ==> |img.pixels[y]| == img.width
  }

  /** A pixmap Qt could not load, or one without area, is null. */
  predicate IsNull(img: Image) {
    img.width == 0 || img.height == 0
  }

  /** The editor's fields: the loaded image, the displayed one, and the
      rotation in degrees. */
  datatype Editor = Editor(original: Option<Image>, current: Option<Image>, rotation: int)

  function Initial(): Editor {
    Editor(None, None, 0)
  }

  /** What the file dialog and `QPixmap(path)` produced. */
  datatype Pick = Cancelled | Picked(image: Image)

  datatype LoadError = CouldNotLoad

  // ---------------------------------------------------------------------
  // Loading

  function Min(a: int, b: int): int {
    if a <= b then a else b
  }

  /** `pixmap.copy(0, 0, size, size)` with `size = min(width, height)`
      for a non-square image; a square image is kept as it is. */
  function Crop(img: Image): (r: Image)
    requires WellFormed(img)
    ensures WellFormed(r)
    ensures r.width == r.height == Min(img.width, img.height)
    ensures forall y, x :: 0 <= y < r.height && 0 <= x < r.width ==> r.pixels[y][x] == img.pixels[y][x]
  {
    if img.width == img.height then img
    else
      var size := Min(img.width, img.height);
      Image(size, size, seq(size, y requires 0 <= y < size => img.pixels[y][..size]))
  }

  /** Cropping an already square image changes nothing, so cropping
      twice is cropping once. */
  lemma CropSquare(img: Image)
    requires WellFormed(img)
    ensures img.width == img.height ==> Crop(img) == img
    ensures Crop(Crop(img)) == Crop(img)
  {
  }

  /** `load_image`: a cancelled dialog or a null pixmap changes nothing
      (the latter is reported); otherwise the square crop becomes both
      the original and the displayed image and the rotation restarts at
      zero. */
  function LoadImage(e: Editor, pick: Pick): (r: Reported<Editor, LoadError>)
    requires pick.Picked? ==> WellFormed(pick.image)
    ensures r.error.Some? <==> pick.Picked? && IsNull(pick.image)
    ensures pick.Cancelled? || r.error.Some? ==> r.state == e
    ensures pick.Picked? && r.error.None? ==>
              && r.state.original.Some?
              && r.state.current == r.state.original
              && r.state.rotation == 0
              && r.state.original.value.width == r.state.original.value.height
              && r.state.original.value.width == Min(pick.image.width, pick.image.height) > 0
    ensures pick.Picked? && r.error.None? ==>
              r.state == Editor(Some(Crop(pick.image)), Some(Crop(pick.image)), 0)
  {
    match pick
    case Cancelled => Reported(e, None)
    case Picked(img) =>
      if IsNull(img) then Reported(e, Some(CouldNotLoad))
      else
        var square := Crop(img);
        Reported(Editor(Some(square), Some(square), 0), None)
  }

  // ---------------------------------------------------------------------
  // Rotation

  /** `rotate_image(angle)`: with an image shown the angle moves by
      `angle` modulo 360 (Python's `%`, never negative for a positive
      modulus); without one nothing happens. */
  function RotateImage(e: Editor, angle: int): (r: Editor)
    ensures r.original == e.original && r.current == e.current
    ensures e.current.None? ==> r == e
    ensures e.current.Some? ==> 0 <= r.rotation < 360 && (r.rotation - e.rotation - angle) % 360 == 0
  {
    if e.current.Some? then e.(rotation := (e.rotation + angle) % 360) else e
  }

  /** `rotate_left`: a quarter turn counter-clockwise, wrapping below 0. */
  function RotateLeft(e: Editor): (r: Editor)
    ensures r.original == e.original && r.current == e.current
    ensures e.current.None? ==> r == e
    ensures e.current.Some? && 0 <= e.rotation < 360 ==>
              r.rotation == if e.rotation >= 90 then e.rotation - 90 else e.rotation + 270
  {
    RotateImage(e, -90)
  }

  /** `rotate_right`: a quarter turn clockwise, wrapping at 360. */
  function RotateRight(e: Editor): (r: Editor)
    ensures r.original == e.original && r.current == e.current
    ensures e.current.None? ==> r == e
    ensures e.current.Some? && 0 <= e.rotation < 360 ==>
              r.rotation == if e.rotation < 270 then e.rotation + 90 else e.rotation - 270
  {
    RotateImage(e, 90)
  }

  /** `reset_rotation`: back to zero, whether or not an image is shown. */
  function ResetRotation(e: Editor): (r: Editor)
    ensures r.rotation == 0 && r.original == e.original && r.current == e.current
  {
    e.(rotation := 0)
  }

  /** The rotation is one of 0, 90, 180, 270. */
  predicate RightAngle(e: Editor) {
    0 <= e.rotation < 360 && e.rotation % 90 == 0
  }

  /** Every operation keeps the rotation a right angle in [0, 360). */
  lemma RightAngleInvariant(e: Editor, pick: Pick)
    requires RightAngle(e)
    requires pick.Picked? ==> WellFormed(pick.image)
    ensures RightAngle(Initial())
    ensures RightAngle(RotateLeft(e)) && RightAngle(RotateRight(e))
    ensures RightAngle(ResetRotation(e))
    ensures RightAngle(LoadImage(e, pick).state)
  {
  }

  /** A left turn undoes a right turn and vice versa. */
  lemma LeftRightInverse(e: Editor)
    requires 0 <= e.rotation < 360
    ensures RotateRight(RotateLeft(e)) == e
    ensures RotateLeft(RotateRight(e)) == e
  {
  }

  /** One right turn from an angle in [0, 360). */
  lemma TurnRight(a: int)
    requires 0 <= a < 360
    ensures (a + 90) % 360 == if a < 270 then a + 90 else a - 270
  {
  }

  /** One left turn from an angle in [0, 360). */
  lemma TurnLeft(a: int)
    requires 0 <= a < 360
    ensures (a - 90) % 360 == if a >= 90 then a - 90 else a + 270
  {
  }

  lemma FourRightTurns(e: Editor)
    requires 0 <= e.rotation < 360
    ensures RotateRight(RotateRight(RotateRight(RotateRight(e)))) == e
  {
    if e.current.Some? {
      var r1 := RotateRight(e);
      TurnRight(e.rotation);
      var r2 := RotateRight(r1);
      TurnRight(r1.rotation);
      var r3 := RotateRight(r2);
      TurnRight(r2.rotation);
      TurnRight(r3.rotation);
    }
  }

  lemma FourLeftTurns(e: Editor)
    requires 0 <= e.rotation < 360
    ensures RotateLeft(RotateLeft(RotateLeft(RotateLeft(e)))) == e
  {
    if e.current.Some? {
      var l1 := RotateLeft(e);
      TurnLeft(e.rotation);
      var l2 := RotateLeft(l1);
      TurnLeft(l1.rotation);
      var l3 := RotateLeft(l2);
      TurnLeft(l2.rotation);
      TurnLeft(l3.rotation);
    }
  }

  /** Four turns the same way come back to the start. */
  lemma FourTurns(e: Editor)
    requires 0 <= e.rotation < 360
    ensures RotateRight(RotateRight(RotateRight(RotateRight(e)))) == e
    ensures RotateLeft(RotateLeft(RotateLeft(RotateLeft(e)))) == e
  {
    FourRightTurns(e);
    FourLeftTurns(e);
  }

  // ---------------------------------------------------------------------
  // Colour channels

  /** Which radio button is checked; `NoSelection` when none is. */
  datatype ChannelMode = Original | Red | Green | Blue | Grayscale | NoSelection

  /** The luminance `0.299 r + 0.587 g + 0.114 b`, truncated, computed
      exactly in thousandths. */
  function Gray(c: Color): int {
    (299 * c.red + 587 * c.green + 114 * c.blue) / 1000
  }

  /** The new colour of one pixel. */
  function MapPixel(mode: ChannelMode, c: Color): (r: Color)
    ensures mode == Red ==> r == Color(c.red, 0, 0)
    ensures mode == Green ==> r == Color(0, c.green, 0)
    ensures mode == Blue ==> r == Color(0, 0, c.blue)
    ensures mode == Grayscale ==> r.red == r.green == r.blue
    ensures mode == Original || mode == NoSelection ==> r == c
  {
    match mode
    case Red => Color(c.red, 0, 0)
    case Green => Color(0, c.green, 0)
    case Blue => Color(0, 0, c.blue)
    case Grayscale => var g := Gray(c); Color(g, g, g)
    case _ => c
  }

  /** Isolating a channel twice is isolating it once. */
  lemma MapPixelIdempotent(mode: ChannelMode, c: Color)
    ensures MapPixel(mode, MapPixel(mode, c)) == MapPixel(mode, c)
  {
  }

  /** Mapped colours stay within 0..255, and grey lies between the
      smallest and the largest channel. */
  lemma MapPixelValid(mode: ChannelMode, c: Color)
    requires Valid(c)
    ensures Valid(MapPixel(mode, c))
    ensures mode == Grayscale ==>
              var g := MapPixel(mode, c).red;
              Min(c.red, Min(c.green, c.blue)) <= g
              && g <= 255 - Min(255 - c.red, Min(255 - c.green, 255 - c.blue))
  {
  }

  /** One row of pixels mapped. */
  function MapRow(mode: ChannelMode, row: seq<Color>): (r: seq<Color>)
    ensures |r| == |row|
    ensures forall x :: 0 <= x < |row| ==> r[x] == MapPixel(mode, row[x])
  {
    seq(|row|, x requires 0 <= x < |row| => MapPixel(mode, row[x]))
  }

  /** Every pixel mapped, the size kept. */
  function MapImage(mode: ChannelMode, img: Image): (r: Image)
    requires WellFormed(img)
    ensures WellFormed(r) && r.width == img.width && r.height == img.height
    ensures forall y, x :: 0 <= y < r.height && 0 <= x < r.width ==>
              r.pixels[y][x] == MapPixel(mode, img.pixels[y][x])
  {
    Image(img.width, img.height,
      seq(img.height, y requires 0 <= y < img.height => MapRow(mode, img.pixels[y])))
  }

  /** `apply_color_channel`: with "Original" checked or no image loaded
      the pixmap is returned as it is; otherwise every pixel is mapped. */
  function ApplyColorChannel(e: Editor, mode: ChannelMode, img: Image): (r: Image)
    requires WellFormed(img)
    ensures mode == Original || e.original.None? ==> r == img
    ensures WellFormed(r) && r.width == img.width && r.height == img.height
    ensures e.original.Some? ==>
              forall y, x :: 0 <= y < r.height && 0 <= x < r.width ==>
                r.pixels[y][x] == MapPixel(mode, img.pixels[y][x])
  {
    if mode == Original || e.original.None? then img else MapImage(mode, img)
  }

  /** Whether the pixels agree with `img` mapped in the columns before
      `x` and in column `x` above row `y`, and with `img` elsewhere. */
  predicate MappedUpTo(mode: ChannelMode, img: Image, pixels: seq<seq<Color>>, x: int, y: int)
    requires WellFormed(img)
  {
    && |pixels| == img.height
    && (forall j :: 0 <= j < img.height ==> |pixels[j]| == img.width)
    && forall j, i :: 0 <= j < img.height && 0 <= i < img.width ==>
         pixels[j][i] == (if i < x || (i == x && j < y) then MapPixel(mode, img.pixels[j][i]) else img.pixels[j][i])
  }

  /** The source's pixel loop: columns outer, rows inner, each pixel read
      and rewritten once. It computes `ApplyColorChannel`. */
  method ApplyColorChannelLoop(e: Editor, mode: ChannelMode, img: Image) returns (out: Image)
    requires WellFormed(img)
    ensures out == ApplyColorChannel(e, mode, img)
  {
    if mode == Original || e.original.None? {
      return img;
    }
    var pixels := img.pixels;
    var x := 0;
    while x < img.width
      invariant 0 <= x <= img.width
      invariant MappedUpTo(mode, img, pixels, x, 0)
    {
      var y := 0;
      while y < img.height
        invariant 0 <= y <= img.height
        invariant MappedUpTo(mode, img, pixels, x, y)
      {
        var color := pixels[y][x];
        pixels := pixels[y := pixels[y][x := MapPixel(mode, color)]];
        y := y + 1;
      }
      x := x + 1;
    }
    out := Image(img.width, img.height, pixels);
    var expected := MapImage(mode, img);
    assert forall j :: 0 <= j < img.height ==> pixels[j] == expected.pixels[j];
  }

  /** Applying a channel to its own output changes nothing more. */
  lemma ApplyColorChannelIdempotent(e: Editor, mode: ChannelMode, img: Image)
    requires WellFormed(img)
    ensures ApplyColorChannel(e, mode, ApplyColorChannel(e, mode, img)) == ApplyColorChannel(e, mode, img)
  {
    var once := ApplyColorChannel(e, mode, img);
    var twice := ApplyColorChannel(e, mode, once);
    if !(mode == Original || e.original.None?) {
      forall y, x | 0 <= y < img.height && 0 <= x < img.width
        ensures twice.pixels[y][x] == once.pixels[y][x]
      {
        MapPixelIdempotent(mode, img.pixels[y][x]);
      }
      assert forall y :: 0 <= y < img.height ==> twice.pixels[y] == once.pixels[y];
    }
  }
}

=== FILE: number_analyzer.dfy ===
/** The number analyzer of Number_1.py: the text of a file is split on
    whitespace, the tokens `int()` accepts are kept in order, and their
    minimum, maximum and mean are stored for display and saving. */
module NumberAnalyzer {
  import opened Wrappers
  import opened PyText

  /** The analyzer's stored results; `None` stands for the source's
      `None` before the first successful analysis. */
  datatype Analyzer = Analyzer(
    numbers: seq<int>,
    minValue: Option<int>,
    maxValue: Option<int>,
    avgValue: Option<real>)

  /** The state right after construction: nothing computed yet. */
  function Initial(): Analyzer {
    Analyzer([], None, None, None)
  }

  datatype AnalyzeError = NoIntegersFound

  datatype SaveError = NothingToSave

  /** What `save_results` writes: minimum, maximum, mean and count. */
  datatype Report = Report(minValue: int, maxValue: int, average: real, count: nat)

  // ---------------------------------------------------------------------
  // Token filtering

  /** The tokens `int()` accepts, converted, in their original order; the
      others are skipped. */
  function ValidIntegers(tokens: seq<string>): (r: seq<int>)
    ensures |r| <= |tokens|
  {
    if tokens == [] then []
    else
      var rest := ValidIntegers(tokens[..|tokens| - 1]);
      match ParseInt(tokens[|tokens| - 1])
      case Some(n) => rest + [n]
      case None => rest
  }

  /** The integers found in a text: `content.split()` filtered by `int()`. */
  function ExtractIntegers(content: string): seq<int> {
    ValidIntegers(Split(content))
  }

  /** Filtering works token by token: the result for a concatenation is
      the concatenation of the results. */
  lemma {:induction false} ValidIntegersAppend(a: seq<string>, b: seq<string>)
    ensures ValidIntegers(a + b) == ValidIntegers(a) + ValidIntegers(b)
    decreases |b|
  {
    if b == [] {
      assert a + b == a;
    } else {
      var b' := b[..|b| - 1];
      assert (a + b)[..|a + b| - 1] == a + b' && (a + b)[|a + b| - 1] == b[|b| - 1];
      ValidIntegersAppend(a, b');
    }
  }

  /** A value is kept exactly when some token converts to it. */
  lemma {:induction false} ValidIntegersMembers(tokens: seq<string>, x: int)
    ensures x in ValidIntegers(tokens) <==>
              exists i :: 0 <= i < |tokens| && ParseInt(tokens[i]) == Some(x)
  {
    if tokens != [] {
      var init := tokens[..|tokens| - 1];
      ValidIntegersMembers(init, x);
      assert forall i :: 0 <= i < |init| ==> init[i] == tokens[i];
    }
  }

  /** `str(x)` of each value: the text a list of integers prints as. */
  function ShowAll(xs: seq<int>): seq<string> {
    if xs == [] then [] else ShowAll(xs[..|xs| - 1]) + [Show(xs[|xs| - 1])]
  }

  /** Printed integers are all read back, in order. */
  lemma {:induction false} ValidIntegersOfShown(xs: seq<int>)
    ensures ValidIntegers(ShowAll(xs)) == xs
  {
    if xs != [] {
      var init, last := xs[..|xs| - 1], xs[|xs| - 1];
      var tokens := ShowAll(xs);
      assert ParseInt(Show(last)) == Some(last) by {
        ParseShow(last);
      }
      assert ValidIntegers(tokens) == ValidIntegers(ShowAll(init)) + [last] by {
        assert tokens[..|tokens| - 1] == ShowAll(init) && tokens[|tokens| - 1] == Show(last);
      }
      ValidIntegersOfShown(init);
      assert xs == init + [last];
    }
  }

  lemma {:induction false} ShowAllElements(xs: seq<int>)
    ensures |ShowAll(xs)| == |xs|
    ensures forall i :: 0 <= i < |xs| ==> ShowAll(xs)[i] == Show(xs[i])
  {
    if xs != [] {
      ShowAllElements(xs[..|xs| - 1]);
    }
  }

  /** `str(n)` is one non-empty whitespace-free token. */
  lemma ShowIsToken(n: int)
    ensures Show(n) != [] && NoSpace(Show(n))
  {
    var digits := ShowNat(if n < 0 then -n else n);
    assert NoSpace(digits);
    if n < 0 {
      assert Show(n) == "-" + digits;
      assert forall k :: 1 <= k < |Show(n)| ==> Show(n)[k] == digits[k - 1];
    }
  }

  /** A file holding integers separated by spaces is read back exactly:
      the analysis finds every integer, in order. */
  lemma ExtractJoinedIntegers(xs: seq<int>)
    ensures ExtractIntegers(Join(ShowAll(xs))) == xs
  {
    var tokens := ShowAll(xs);
    ShowAllElements(xs);
    forall i | 0 <= i < |tokens|
      ensures tokens[i] != [] && NoSpace(tokens[i])
    {
      ShowIsToken(xs[i]);
    }
    SplitJoin(tokens);
    ValidIntegersOfShown(xs);
  }

  /** The loop of `analyze_file`: try each token, keep what converts. */
  method FilterIntegers(tokens: seq<string>) returns (numbers: seq<int>)
    ensures numbers == ValidIntegers(tokens)
  {
    numbers := [];
    var i := 0;
    while i < |tokens|
      invariant 0 <= i <= |tokens|
      invariant numbers == ValidIntegers(tokens[..i])
    {
      assert tokens[..i + 1][..i] == tokens[..i];
      match ParseInt(tokens[i]) {
        case Some(n) => numbers := numbers + [n];
        case None =>
      }
      i := i + 1;
    }
    assert tokens[..|tokens|] == tokens;
  }

  // ---------------------------------------------------------------------
  // Statistics

  /** `min(numbers)`: an element no larger than any other. */
  function Min(s: seq<int>): (m: int)
    requires |s| > 0
    ensures m in s
    ensures forall k :: 0 <= k < |s| ==> m <= s[k]
  {
    if |s| == 1 then s[0]
    else
      var m := Min(s[..|s| - 1]);
      assert forall k :: 0 <= k < |s| - 1 ==> s[..|s| - 1][k] == s[k];
      if s[|s| - 1] < m then s[|s| - 1] else m
  }

  /** `max(numbers)`: an element no smaller than any other. */
  function Max(s: seq<int>): (m: int)
    requires |s| > 0
    ensures m in s
    ensures forall k :: 0 <= k < |s| ==> s[k] <= m
  {
    if |s| == 1 then s[0]
    else
      var m := Max(s[..|s| - 1]);
      assert forall k :: 0 <= k < |s| - 1 ==> s[..|s| - 1][k] == s[k];
      if s[|s| - 1] > m then s[|s| - 1] else m
  }

  function Sum(s: seq<int>): int {
    if s == [] then 0 else Sum(s[..|s| - 1]) + s[|s| - 1]
  }

  /** `sum(numbers) / len(numbers)`, exactly. */
  function Mean(s: seq<int>): real
    requires |s| > 0
  {
    (Sum(s) as real) / (|s| as real)
  }

  /** A sum of values between `lo` and `hi` lies between `|s|*lo` and
      `|s|*hi`. */
  lemma {:induction false} SumBounds(s: seq<int>, lo: int, hi: int)
    requires forall k :: 0 <= k < |s| ==> lo <= s[k] <= hi
    ensures |s| * lo <= Sum(s) <= |s| * hi
  {
    if s != [] {
      var init := s[..|s| - 1];
      assert forall k :: 0 <= k < |init| ==> init[k] == s[k];
      SumBounds(init, lo, hi);
      assert |s| * lo == |init| * lo + lo && |s| * hi == |init| * hi + hi;
    }
  }

  /** The mean lies between the minimum and the maximum. */
  lemma MeanBetween(s: seq<int>)
    requires |s| > 0
    ensures Min(s) as real <= Mean(s) <= Max(s) as real
  {
    SumBounds(s, Min(s), Max(s));
    ScaleBounds(Sum(s), |s|, Min(s), Max(s));
  }

  /** Dividing `n*lo <= x <= n*hi` by a positive `n`, over the reals. */
  lemma ScaleBounds(x: int, n: int, lo: int, hi: int)
    requires n > 0 && n * lo <= x <= n * hi
    ensures lo as real <= (x as real) / (n as real) <= hi as real
  {
    var q := (x as real) / (n as real);
    var nr := n as real;
    assert q * nr == x as real;
    assert (n * lo) as real == nr * (lo as real);
    assert (n * hi) as real == nr * (hi as real);
    assert (q - lo as real) * nr >= 0.0;
    assert (hi as real - q) * nr >= 0.0;
  }

  // ---------------------------------------------------------------------
  // The operations

  /** `analyze_file` after the file has been read into `content`. When no
      token converts, an error is reported and nothing is stored;
      otherwise the integers found, their extremes and their mean
      replace the previous results. */
  function Analyze(a: Analyzer, content: string): (r: Reported<Analyzer, AnalyzeError>)
    ensures r.error.Some? <==> ExtractIntegers(content) == []
    ensures r.error.Some? ==> r.state == a
    ensures r.error.None? ==>
              && r.state.numbers == ExtractIntegers(content)
              && r.state.minValue.Some? && r.state.maxValue.Some? && r.state.avgValue.Some?
              && r.state.minValue.value in r.state.numbers
              && r.state.maxValue.value in r.state.numbers
              && (forall k :: 0 <= k < |r.state.numbers| ==>
                    r.state.minValue.value <= r.state.numbers[k] <= r.state.maxValue.value)
              && r.state.minValue.value as real <= r.state.avgValue.value <= r.state.maxValue.value as real
  {
    var numbers := ExtractIntegers(content);
    if numbers == [] then Reported(a, Some(NoIntegersFound))
    else
      MeanBetween(numbers);
      Reported(Analyzer(numbers, Some(Min(numbers)), Some(Max(numbers)), Some(Mean(numbers))), None)
  }

  /** The guard and the data of `save_results`: refused while any of the
      three statistics is unset, otherwise the stored values and the count
      of numbers. */
  function SaveResults(a: Analyzer): (r: Result<Report, SaveError>)
    ensures r.Failure? <==> a.minValue.None? || a.maxValue.None? || a.avgValue.None?
    ensures r.Success? ==>
              && Some(r.value.minValue) == a.minValue
              && Some(r.value.maxValue) == a.maxValue
              && Some(r.value.average) == a.avgValue
              && r.value.count == |a.numbers|
  {
    if a.minValue.None? || a.maxValue.None? || a.avgValue.None? then Failure(NothingToSave)
    else Success(Report(a.minValue.value, a.maxValue.value, a.avgValue.value, |a.numbers|))
  }

  /** Nothing can be saved before the first successful analysis, and after
      one the report is consistent: minimum <= mean <= maximum, over a
      non-empty list of numbers. */
  lemma SaveAfterAnalyze(a: Analyzer, content: string)
    ensures SaveResults(Initial()).Failure?
    ensures Analyze(a, content).error.None? ==>
              var r := SaveResults(Analyze(a, content).state);
              && r.Success?
              && r.value.count == |ExtractIntegers(content)| > 0
              && r.value.minValue <= r.value.maxValue
              && r.value.minValue as real <= r.value.average <= r.value.maxValue as real
  {
  }

  /** A failed analysis keeps earlier results saveable: the guard sees
      the same state as before. */
  lemma FailedAnalyzeKeepsResults(a: Analyzer, content: string)
    requires ExtractIntegers(content) == []
    ensures SaveResults(Analyze(a, content).state) == SaveResults(a)
  {
  }
}

=== FILE: pytext.dfy ===
/** The Python text primitives the applications rely on: whitespace as
    `str.isspace()` defines it, `str.strip()`, `str.split()` with no
    separator, and `int()` applied to a base-10 string. */
module PyText {
  import opened Wrappers

  /** The characters `str.isspace()` accepts (ASCII and Unicode). */
  predicate IsSpace(c: char) {
    ('\U{9}' <= c && c <= '\U{D}')
    || ('\U{1C}' <= c && c <= '\U{20}')
    || c == '\U{85}' || c == '\U{A0}' || c == '\U{1680}'
    || ('\U{2000}' <= c && c <= '\U{200A}')
    || c == '\U{2028}' || c == '\U{2029}' || c == '\U{202F}'
    || c == '\U{205F}' || c == '\U{3000}'
  }

  predicate NoSpace(s: string) {
    forall k :: 0 <= k < |s| ==> !IsSpace(s[k])
  }

  predicate AllSpace(s: string) {
    forall k :: 0 <= k < |s| ==> IsSpace(s[k])
  }

  /** Neither starts nor ends with whitespace. */
  predicate Trimmed(s: string) {
    s == [] || (!IsSpace(s[0]) && !IsSpace(s[|s| - 1]))
  }

  /** `str.lstrip()`: the suffix left after dropping leading whitespace. */
  function LStrip(s: string): (r: string)
    ensures |r| <= |s|
  {
    if |s| > 0 && IsSpace(s[0]) then LStrip(s[1..]) else s
  }

  lemma {:induction false} LStripFacts(s: string)
    ensures LStrip(s) == s[|s| - |LStrip(s)|..]
    ensures AllSpace(s[..|s| - |LStrip(s)|])
    ensures LStrip(s) == [] || !IsSpace(LStrip(s)[0])
  {
    if |s| > 0 && IsSpace(s[0]) {
      LStripFacts(s[1..]);
      var n := |s| - |LStrip(s)|;
      assert s[..n] == [s[0]] + s[1..][..n - 1];
    }
  }

  /** `str.rstrip()`: the prefix left after dropping trailing whitespace. */
  function RStrip(s: string): (r: string)
    ensures |r| <= |s|
  {
    if |s| > 0 && IsSpace(s[|s| - 1]) then RStrip(s[..|s| - 1]) else s
  }

  lemma {:induction false} RStripFacts(s: string)
    ensures RStrip(s) == s[..|RStrip(s)|]
    ensures AllSpace(s[|RStrip(s)|..])
    ensures RStrip(s) == [] || !IsSpace(RStrip(s)[|RStrip(s)| - 1])
  {
    if |s| > 0 && IsSpace(s[|s| - 1]) {
      var init := s[..|s| - 1];
      RStripFacts(init);
      var n := |RStrip(s)|;
      assert s[n..] == init[n..] + [s[|s| - 1]];
    }
  }

  /** `str.strip()`: whitespace removed from both ends. */
  function Strip(s: string): string {
    RStrip(LStrip(s))
  }

  /** What `str.strip()` promises: the result is a contiguous part of the
      text with no whitespace at either end, everything dropped on either
      side is whitespace, and it is empty exactly when the text is blank. */
  lemma StripSpec(s: string) returns (i: nat)
    ensures Trimmed(Strip(s))
    ensures i + |Strip(s)| <= |s| && Strip(s) == s[i..i + |Strip(s)|]
    ensures AllSpace(s[..i]) && AllSpace(s[i + |Strip(s)|..])
    ensures Strip(s) == [] <==> AllSpace(s)
  {
    var l := LStrip(s);
    var r := RStrip(l);
    LStripFacts(s);
    RStripFacts(l);
    i := |s| - |l|;
    assert s[i..] == l;
    assert s[i..i + |r|] == l[..|r|];
    assert s[i + |r|..] == l[|r|..];
    if r == [] {
      assert l[|r|..] == l;
      assert l == [];
      assert s[..i] == s;
    } else {
      assert r[0] == l[0];
      assert !AllSpace(s) by { assert s[i] == r[0]; }
    }
  }

  /** Text without leading or trailing whitespace is its own strip. */
  lemma StripTrimmed(s: string)
    requires Trimmed(s)
    ensures Strip(s) == s
  {
    assert LStrip(s) == s;
  }

  /** The characters of a text that are not whitespace, in order. */
  function RemoveSpaces(s: string): string {
    if s == [] then [] else (if IsSpace(s[0]) then [] else [s[0]]) + RemoveSpaces(s[1..])
  }

  lemma {:induction false} RemoveSpacesAppend(a: string, b: string)
    ensures RemoveSpaces(a + b) == RemoveSpaces(a) + RemoveSpaces(b)
  {
    if a == [] {
      assert a + b == b;
    } else {
      assert (a + b)[0] == a[0];
      assert (a + b)[1..] == a[1..] + b;
      RemoveSpacesAppend(a[1..], b);
    }
  }

  lemma {:induction false} RemoveSpacesOfAllSpace(s: string)
    requires AllSpace(s)
    ensures RemoveSpaces(s) == []
  {
    if s != [] {
      assert AllSpace(s[1..]) by { assert forall k :: 0 <= k < |s| - 1 ==> s[1..][k] == s[k + 1]; }
      RemoveSpacesOfAllSpace(s[1..]);
    }
  }

  lemma {:induction false} RemoveSpacesOfNoSpace(s: string)
    requires NoSpace(s)
    ensures RemoveSpaces(s) == s
  {
    if s != [] {
      assert NoSpace(s[1..]) by { assert forall k :: 0 <= k < |s| - 1 ==> s[1..][k] == s[k + 1]; }
      RemoveSpacesOfNoSpace(s[1..]);
      assert s == [s[0]] + s[1..];
    }
  }

  function Concat(parts: seq<string>): string {
    if parts == [] then [] else parts[0] + Concat(parts[1..])
  }

  /** The longest prefix free of whitespace. */
  function TakeWord(s: string): (w: string)
    ensures |w| <= |s|
  {
    if |s| == 0 || IsSpace(s[0]) then [] else [s[0]] + TakeWord(s[1..])
  }

  lemma {:induction false} TakeWordFacts(s: string)
    ensures TakeWord(s) == s[..|TakeWord(s)|]
    ensures NoSpace(TakeWord(s))
    ensures |TakeWord(s)| == |s| || IsSpace(s[|TakeWord(s)|])
  {
    if |s| > 0 && !IsSpace(s[0]) {
      TakeWordFacts(s[1..]);
      var w := TakeWord(s);
      assert w == [s[0]] + TakeWord(s[1..]);
      assert s[..|w|] == [s[0]] + s[1..][..|w| - 1];
      assert forall k :: 1 <= k < |w| ==> w[k] == TakeWord(s[1..])[k - 1];
    }
  }

  /** `str.split()` with no separator: the maximal whitespace-free runs,
      in order. */
  function Split(s: string): seq<string>
    decreases |s|
  {
    var t := LStrip(s);
    if t == [] then []
    else
      var w := TakeWord(t);
      if w == [] then [] // a non-empty stripped text starts with a word
      else [w] + Split(t[|w|..])
  }

  /** Every token of `str.split()` is non-empty and whitespace-free. */
  lemma {:induction false} SplitTokens(s: string)
    ensures forall i :: 0 <= i < |Split(s)| ==> Split(s)[i] != [] && NoSpace(Split(s)[i])
    decreases |s|
  {
    var t := LStrip(s);
    if t != [] {
      var w := TakeWord(t);
      if w != [] {
        TakeWordFacts(t);
        var rest := t[|w|..];
        SplitTokens(rest);
        assert Split(s) == [w] + Split(rest);
        assert forall i :: 1 <= i < |Split(s)| ==> Split(s)[i] == Split(rest)[i - 1];
      }
    }
  }

  lemma LStripKeepsCharacters(s: string)
    ensures RemoveSpaces(s) == RemoveSpaces(LStrip(s))
  {
    var t := LStrip(s);
    LStripFacts(s);
    var lead := s[..|s| - |t|];
    assert s == lead + t;
    RemoveSpacesAppend(lead, t);
    RemoveSpacesOfAllSpace(lead);
  }

  lemma TakeWordKeepsCharacters(t: string)
    ensures RemoveSpaces(t) == TakeWord(t) + RemoveSpaces(t[|TakeWord(t)|..])
  {
    var w := TakeWord(t);
    TakeWordFacts(t);
    assert t == w + t[|w|..];
    RemoveSpacesAppend(w, t[|w|..]);
    RemoveSpacesOfNoSpace(w);
  }

  /** `" ".join(words)`. */
  function Join(words: seq<string>): string {
    if words == [] then []
    else if |words| == 1 then words[0]
    else words[0] + " " + Join(words[1..])
  }

  /** A word followed by nothing or by whitespace is taken whole. */
  lemma {:induction false} TakeWordStops(w: string, tail: string)
    requires NoSpace(w) && (tail == [] || IsSpace(tail[0]))
    ensures TakeWord(w + tail) == w
  {
    if w != [] {
      assert (w + tail)[1..] == w[1..] + tail;
      TakeWordStops(w[1..], tail);
    } else {
      assert w + tail == tail;
    }
  }

  /** Splitting text joined with single spaces gives back the words, as
      long as they are non-empty and free of whitespace. */
  lemma {:induction false} SplitJoin(words: seq<string>)
    requires forall i :: 0 <= i < |words| ==> words[i] != [] && NoSpace(words[i])
    ensures Split(Join(words)) == words
    decreases |words|
  {
    if words != [] {
      var w := words[0];
      var rest := words[1..];
      var tail := if rest == [] then [] else " " + Join(rest);
      var s := Join(words);
      assert s == w + tail;
      assert LStrip(s) == s by {
        assert s[0] == w[0];
      }
      TakeWordStops(w, tail);
      assert s[|w|..] == tail;
      if rest != [] {
        assert forall i :: 0 <= i < |rest| ==> rest[i] == words[i + 1];
        SplitJoin(rest);
        assert LStrip(tail) == LStrip(Join(rest)) by {
          assert tail[1..] == Join(rest);
        }
        assert Split(tail) == Split(Join(rest));
      }
    }
  }

  /** The tokens of `str.split()` hold exactly the text's non-whitespace
      characters, in their original order. */
  lemma {:induction false} SplitKeepsCharacters(s: string)
    ensures Concat(Split(s)) == RemoveSpaces(s)
    decreases |s|
  {
    var t := LStrip(s);
    LStripKeepsCharacters(s);
    LStripFacts(s);
    if t != [] {
      var w := TakeWord(t);
      TakeWordFacts(t);
      assert w != [];
      var rest := t[|w|..];
      TakeWordKeepsCharacters(t);
      SplitKeepsCharacters(rest);
      var tokens := Split(s);
      assert tokens == [w] + Split(rest);
      assert tokens[1..] == Split(rest);
    }
  }

  predicate IsDigit(c: char) {
    '0' <= c <= '9'
  }

  /** A run of ASCII digits in which single underscores may separate
      digits, as `int()` accepts after the optional sign. */
  predicate IsDigitGroup(s: string) {
    && |s| > 0 && IsDigit(s[0]) && IsDigit(s[|s| - 1])
    && (forall k :: 0 <= k < |s| ==> IsDigit(s[k]) || s[k] == '_')
    && (forall k :: 0 <= k < |s| - 1 ==> IsDigit(s[k]) || IsDigit(s[k + 1]))
  }

  /** The decimal value of the digits of `s`, underscores skipped. */
  function DigitsValue(s: string): nat {
    if s == [] then 0
    else if IsDigit(s[|s| - 1]) then 10 * DigitsValue(s[..|s| - 1]) + (s[|s| - 1] as int - '0' as int)
    else DigitsValue(s[..|s| - 1])
  }

  /** `int(s)` for base 10: an optional sign and a digit group between
      surrounding whitespace; anything else is a `ValueError`, modelled as
      `None`. The whitespace cut here is what `str.strip()` cuts, which is
      slightly wider than what `int()` skips (it does not skip U+001C to
      U+001F); the two agree on every argument the applications pass,
      which is already a stripped line or a `split()` token. */
  function ParseInt(s: string): Option<int> {
    ParseLiteral(Strip(s))
  }

  /** An optional sign followed by a digit group. */
  function ParseLiteral(t: string): Option<int> {
    if |t| > 0 && (t[0] == '+' || t[0] == '-') then
      if IsDigitGroup(t[1..]) then
        Some(if t[0] == '-' then -(DigitsValue(t[1..]) as int) else DigitsValue(t[1..]) as int)
      else None
    else if IsDigitGroup(t) then Some(DigitsValue(t) as int)
    else None
  }

  function DigitChar(d: int): char
    requires 0 <= d < 10
  {
    ('0' as int + d) as char
  }

  /** `str(n)` for a natural number: its decimal digits. */
  function ShowNat(n: nat): (s: string)
    ensures |s| > 0 && forall k :: 0 <= k < |s| ==> IsDigit(s[k])
  {
    if n < 10 then [DigitChar(n)] else ShowNat(n / 10) + [DigitChar(n % 10)]
  }

  /** `str(n)` for an integer. */
  function Show(n: int): string {
    if n < 0 then "-" + ShowNat(-n) else ShowNat(n)
  }

  lemma {:induction false} DigitsValueShowNat(n: nat)
    ensures DigitsValue(ShowNat(n)) == n
  {
    if n >= 10 {
      var s := ShowNat(n);
      assert s[..|s| - 1] == ShowNat(n / 10);
      DigitsValueShowNat(n / 10);
    }
  }

  lemma ShowNatDigitGroup(m: nat)
    ensures IsDigitGroup(ShowNat(m)) && DigitsValue(ShowNat(m)) == m
    ensures !IsSpace(ShowNat(m)[0]) && !IsSpace(ShowNat(m)[|ShowNat(m)| - 1])
  {
    DigitsValueShowNat(m);
  }

  lemma ParseShowNat(m: nat)
    ensures ParseInt(ShowNat(m)) == Some(m as int)
  {
    var s := ShowNat(m);
    ShowNatDigitGroup(m);
    StripTrimmed(s);
    assert IsDigit(s[0]);
  }

  lemma ParseShowNegative(m: nat)
    ensures ParseInt("-" + ShowNat(m)) == Some(-(m as int))
  {
    var digits := ShowNat(m);
    ShowNatDigitGroup(m);
    var s := "-" + digits;
    assert s[0] == '-' && s[1..] == digits;
    assert s[|s| - 1] == digits[|digits| - 1];
    StripTrimmed(s);
  }

  /** `int(str(n)) == n`: parsing inverts printing for every integer. */
  lemma ParseShow(n: int)
    ensures ParseInt(Show(n)) == Some(n)
  {
    if n < 0 { ParseShowNegative(-n); } else { ParseShowNat(n); }
  }
}

=== FILE: scenarios.dfy ===
/** Worked examples of the L-system viewer: concrete definition files,
    generations and drawings, each proved against the general model. */
module Scenarios {
  import opened Wrappers
  import opened PyText
  import opened Grammar
  import opened Turtle

  // ---------------------------------------------------------------------
  // Loading

  /** A Koch-curve definition: name, symmetry count 4, axiom, one rule. */
  function KochFile(): seq<string> {
    ["Koch", "4", "F", "F F+F-F-F+F"]
  }

  function KochRules(): map<string, string> {
    map["F" := "F+F-F-F+F"]
  }

  function Koch(): LSystem {
    LSystem("Koch", 90.0, "F", KochRules(), "F", ["F"], 0)
  }

  lemma KochLinesKept()
    ensures NonBlankLines(KochFile()) == KochFile()
  {
    var file := KochFile();
    assert forall i :: 0 <= i < |file| ==> file[i] != [] && Trimmed(file[i]);
    NonBlankLinesOfTrimmed(file);
  }

  lemma KochRuleLine()
    ensures ParseRules(KochFile()[3..]) == KochRules()
  {
    var line := "F F+F-F-F+F";
    assert KochFile()[3..] == [line];
    assert SpaceIndex(line) == 1;
    assert line[..1] == "F" && line[2..] == "F+F-F-F+F";
    StripTrimmed("F");
    StripTrimmed("F+F-F-F+F");
    assert [line][..0] == [];
  }

  lemma KochFileParses()
    ensures NonBlankLines(KochFile()) == KochFile()
    ensures ParseInt("4") == Some(4)
    ensures ParseRules(KochFile()[3..]) == KochRules()
  {
    KochLinesKept();
    KochRuleLine();
    assert Show(4) == "4";
    ParseShow(4);
  }

  lemma KochCountAccepted()
    ensures Load(Fresh(), KochFile()).error == None
    ensures Load(Fresh(), KochFile()).state.angle == 90.0
  {
    KochFileParses();
    assert NonBlankLines(KochFile())[1] == "4";
  }

  lemma KochRulesRead()
    ensures Load(Fresh(), KochFile()).state.rules == KochRules()
  {
    KochFileParses();
    var ls := NonBlankLines(KochFile());
    assert ls[1] == "4";
    assert ls[3..] == KochFile()[3..];
  }

  lemma KochTextRead()
    ensures Load(Fresh(), KochFile()).state.name == "Koch"
    ensures Load(Fresh(), KochFile()).state.axiom == "F"
  {
    KochFileParses();
    assert NonBlankLines(KochFile())[1] == "4";
  }

  /** Loading the Koch file into a fresh object: a quarter turn, and a
      history that starts at the axiom. */
  lemma KochLoads()
    ensures Load(Fresh(), KochFile()) == Reported(Koch(), None)
  {
    KochCountAccepted();
    KochRulesRead();
    KochTextRead();
  }

  /** Fewer than three non-blank lines: a whitespace-only line does not
      count, and the object is left exactly as it was. */
  lemma BlankLineDoesNotCount(sys: LSystem)
    ensures Load(sys, ["Koch", " \t", "F"]) == Reported(sys, Some(TooFewLines))
  {
    var lines := ["Koch", " \t", "F"];
    var _ := StripSpec(" \t");
    StripTrimmed("Koch");
    StripTrimmed("F");
    assert lines[..2][..1] == ["Koch"];
    assert NonBlankLines(lines) == ["Koch", "F"];
  }

  /** A zero symmetry count fails, after the name has been overwritten. */
  lemma ZeroCountFails(sys: LSystem)
    ensures Load(sys, ["Zero", "0", "F"]) == Reported(sys.(name := "Zero"), Some(ZeroSymmetry))
  {
    var lines := ["Zero", "0", "F"];
    assert forall i :: 0 <= i < |lines| ==> lines[i] != [] && Trimmed(lines[i]);
    NonBlankLinesOfTrimmed(lines);
    assert Show(0) == "0";
    ParseShow(0);
  }

  /** A count that `int()` rejects fails the same way. */
  lemma FractionalCountFails(sys: LSystem)
    ensures Load(sys, ["Half", "4.5", "F"]) == Reported(sys.(name := "Half"), Some(SymmetryNotInteger))
  {
    var lines := ["Half", "4.5", "F"];
    assert forall i :: 0 <= i < |lines| ==> lines[i] != [] && Trimmed(lines[i]);
    NonBlankLinesOfTrimmed(lines);
    StripTrimmed("4.5");
    assert !IsDigit("4.5"[1]);
  }

  /** A negative count is accepted and turns the other way. */
  lemma NegativeCountLoads()
    ensures Load(Fresh(), ["Back", "-4", "F"]).error == None
    ensures Load(Fresh(), ["Back", "-4", "F"]).state.angle == -90.0
  {
    var lines := ["Back", "-4", "F"];
    assert forall i :: 0 <= i < |lines| ==> lines[i] != [] && Trimmed(lines[i]);
    NonBlankLinesOfTrimmed(lines);
    assert Show(-4) == "-4";
    ParseShow(-4);
    var ls := NonBlankLines(lines);
    assert ls[1] == "-4";
    assert ParseInt(ls[1]) == Some(-4);
    var r := Load(Fresh(), lines);
    assert r.error == None;
    assert r.state.angle * -4.0 == 360.0;
  }

  // ---------------------------------------------------------------------
  // Evolution

  lemma KochRewrites()
    ensures Rewrite(KochRules(), "F") == "F+F-F-F+F"
  {
    assert Image(KochRules(), 'F') == "F+F-F-F+F";
    RewriteChar(KochRules(), 'F');
  }

  /** One round on the Koch system appends the first generation and
      selects its text. */
  lemma KochEvolvesOnce()
    ensures Evolve(Koch(), 1).steps == ["F", "F+F-F-F+F"]
    ensures Evolve(Koch(), 1).currentString == "F+F-F-F+F"
    ensures MaxStep(Evolve(Koch(), 1)) == 1
  {
    KochRewrites();
    assert Iterate(KochRules(), "F", 1) == "F+F-F-F+F";
  }

  function DoublingRules(): map<string, string> {
    map["A" := "AA"]
  }

  /** `A -> AA` on `AB`: the `A`s double each round and `B`, which has no
      rule, is copied. */
  lemma Doubling()
    ensures Iterate(DoublingRules(), "AB", 1) == "AAB"
    ensures Iterate(DoublingRules(), "AB", 2) == "AAAAB"
  {
    var rules := DoublingRules();
    assert Image(rules, 'A') == "AA";
    assert Image(rules, 'B') == "B";
    RewriteChar(rules, 'A');
    RewriteChar(rules, 'B');
    RewriteAppend(rules, "A", "B");
    assert "A" + "B" == "AB";
    assert Rewrite(rules, "AB") == "AAB";
    RewriteAppend(rules, "A", "AB");
    assert "A" + "AB" == "AAB";
    assert Rewrite(rules, "AAB") == "AA" + "AAB";
  }

  /** A two-generation history of `A -> AB` with generation 1 selected. */
  function Grown(): LSystem {
    LSystem("grow", 90.0, "A", map["A" := "AB"], "AB", ["A", "AB"], 1)
  }

  lemma GrownRewrites()
    ensures Rewrite(Grown().rules, "A") == "AB"
    ensures Rewrite(Grown().rules, "AB") == "ABB"
  {
    var rules := Grown().rules;
    assert Image(rules, 'A') == "AB";
    assert Image(rules, 'B') == "B";
    RewriteChar(rules, 'A');
    RewriteChar(rules, 'B');
    RewriteAppend(rules, "A", "B");
    assert "A" + "B" == "AB";
  }

  /** `evolve` rewrites the current string, not the newest generation:
      after stepping back to generation 0 and evolving once, the appended
      entry repeats generation 1 and the history is no longer a chain. */
  lemma EvolveAfterSteppingBack()
    ensures IsHistory(Grown().rules, Grown().steps)
    ensures Evolve(SetStep(Grown(), 0), 1).steps == ["A", "AB", "AB"]
    ensures !IsHistory(Grown().rules, Evolve(SetStep(Grown(), 0), 1).steps)
  {
    GrownRewrites();
    var back := SetStep(Grown(), 0);
    assert back.currentString == "A";
    var r := Evolve(back, 1);
    assert r.steps[2] == Iterate(Grown().rules, "A", 1) == "AB";
    assert r.steps == ["A", "AB", "AB"];
    assert r.steps[2] != Rewrite(Grown().rules, r.steps[1]);
  }

  // ---------------------------------------------------------------------
  // Drawing

  /** Appending one character to the interpreted text: one more step. */
  lemma RunSnoc<P>(c: Cursor<P>, s: string, ch: char, turn: real, advance: (P, real) -> P)
    ensures var t := Run(c, s, turn, advance);
      var u := Step(t.cursor, ch, turn, advance);
      Run(c, s + [ch], turn, advance) == Trace(u.cursor, t.segments + u.segments)
  {
    assert (s + [ch])[..|s|] == s;
  }

  /** `F+F` draws a corner: the second segment starts where the first
      ends and leaves at the start heading turned once. */
  lemma Corner<P>(origin: P, turn: real, advance: (P, real) -> P)
    ensures var a := advance(origin, InitialHeading());
      Interpret("F+F", turn, advance, origin) ==
        [Segment(origin, a), Segment(a, advance(a, InitialHeading() + turn))]
  {
    var c := Cursor(origin, InitialHeading(), []);
    var a := advance(origin, InitialHeading());
    assert Run(c, "F", turn, advance) == Trace(c.(pos := a), [Segment(origin, a)]) by {
      RunSnoc(c, [], 'F', turn, advance);
      assert [] + ['F'] == "F";
    }
    assert Run(c, "F+", turn, advance).cursor == Cursor(a, InitialHeading() + turn, []) by {
      RunSnoc(c, "F", '+', turn, advance);
      assert "F" + ['+'] == "F+";
    }
    RunSnoc(c, "F+", 'F', turn, advance);
    assert "F+" + ['F'] == "F+F";
  }

  /** Five of the nine characters of the first Koch generation draw. */
  lemma KochDraws()
    ensures CountDraws("F+F-F-F+F") == 5
  {
    assert CountDraws("F") == 1 by { assert "F"[..0] == []; }
    assert CountDraws("F+") == 1 by { assert "F+"[..1] == "F"; }
    assert CountDraws("F+F") == 2 by { assert "F+F"[..2] == "F+"; }
    assert CountDraws("F+F-") == 2 by { assert "F+F-"[..3] == "F+F"; }
    assert CountDraws("F+F-F") == 3 by { assert "F+F-F"[..4] == "F+F-"; }
    assert CountDraws("F+F-F-") == 3 by { assert "F+F-F-"[..5] == "F+F-F"; }
    assert CountDraws("F+F-F-F") == 4 by { assert "F+F-F-F"[..6] == "F+F-F-"; }
    assert CountDraws("F+F-F-F+") == 4 by { assert "F+F-F-F+"[..7] == "F+F-F-F"; }
    assert "F+F-F-F+F"[..8] == "F+F-F-F+";
  }

  /** The first Koch generation draws five segments, one per `F`. */
  lemma KochSegments<P>(origin: P, advance: (P, real) -> P)
    ensures |Interpret(Evolve(Koch(), 1).currentString, Koch().angle, advance, origin)| == 5
  {
    KochEvolvesOnce();
    SegmentCount(Cursor(origin, InitialHeading(), []), "F+F-F-F+F", 90.0, advance);
    KochDraws();
  }

  /** Inside the branch of `F[+F]F`: the pose at the end of the first
      segment is saved, and the branch segment starts there. */
  lemma BranchOpens<P>(origin: P, turn: real, advance: (P, real) -> P)
    ensures var h := InitialHeading();
      var a := advance(origin, h);
      var b := advance(a, h + turn);
      Run(Cursor(origin, h, []), "F[+F", turn, advance) ==
        Trace(Cursor(b, h + turn, [Pose(a, h)]), [Segment(origin, a), Segment(a, b)])
  {
    var h := InitialHeading();
    var c := Cursor(origin, h, []);
    var a := advance(origin, h);
    var s1 := [Segment(origin, a)];
    assert Run(c, "F", turn, advance) == Trace(Cursor(a, h, []), s1) by {
      RunSnoc(c, [], 'F', turn, advance);
      assert [] + ['F'] == "F";
    }
    assert Run(c, "F[", turn, advance) == Trace(Cursor(a, h, [Pose(a, h)]), s1) by {
      RunSnoc(c, "F", '[', turn, advance);
      assert "F" + ['['] == "F[";
    }
    assert Run(c, "F[+", turn, advance) == Trace(Cursor(a, h + turn, [Pose(a, h)]), s1) by {
      RunSnoc(c, "F[", '+', turn, advance);
      assert "F[" + ['+'] == "F[+";
    }
    RunSnoc(c, "F[+", 'F', turn, advance);
    assert "F[+" + ['F'] == "F[+F";
  }

  /** In `F[+F]F` the branch and the trunk both continue from the end of
      the first segment, and the trunk keeps the heading it had before
      the branch. */
  lemma BranchScenario<P>(origin: P, turn: real, advance: (P, real) -> P)
    ensures var h := InitialHeading();
      var a := advance(origin, h);
      Interpret("F[+F]F", turn, advance, origin) ==
        [Segment(origin, a), Segment(a, advance(a, h + turn)), Segment(a, advance(a, h))]
  {
    var h := InitialHeading();
    var c := Cursor(origin, h, []);
    var a := advance(origin, h);
    var b := advance(a, h + turn);
    var d := advance(a, h);
    var s2 := [Segment(origin, a), Segment(a, b)];
    BranchOpens(origin, turn, advance);
    assert Run(c, "F[+F]", turn, advance) == Trace(Cursor(a, h, []), s2) by {
      RunSnoc(c, "F[+F", ']', turn, advance);
      assert "F[+F" + [']'] == "F[+F]";
      assert [Pose(a, h)][..0] == [];
    }
    RunSnoc(c, "F[+F]", 'F', turn, advance);
    assert "F[+F]" + ['F'] == "F[+F]F";
  }

  /** `F]F`: the unmatched `]` neither moves nor turns the turtle. */
  lemma StrayCloseRun<P>(origin: P, turn: real, advance: (P, real) -> P)
    ensures var h := InitialHeading();
      var a := advance(origin, h);
      Run(Cursor(origin, h, []), "F]F", turn, advance) ==
        Trace(Cursor(advance(a, h), h, []), [Segment(origin, a), Segment(a, advance(a, h))])
  {
    var h := InitialHeading();
    var c := Cursor(origin, h, []);
    var a := advance(origin, h);
    var t1 := Trace(Cursor(a, h, []), [Segment(origin, a)]);
    assert Run(c, "F", turn, advance) == t1 by {
      RunSnoc(c, [], 'F', turn, advance);
      assert [] + ['F'] == "F";
    }
    assert Run(c, "F]", turn, advance) == t1 by {
      RunSnoc(c, "F", ']', turn, advance);
      assert "F" + [']'] == "F]";
    }
    RunSnoc(c, "F]", 'F', turn, advance);
    assert "F]" + ['F'] == "F]F";
  }

  /** `FF`: two segments straight on. */
  lemma StraightRun<P>(origin: P, turn: real, advance: (P, real) -> P)
    ensures var h := InitialHeading();
      var a := advance(origin, h);
      Run(Cursor(origin, h, []), "FF", turn, advance) ==
        Trace(Cursor(advance(a, h), h, []), [Segment(origin, a), Segment(a, advance(a, h))])
  {
    var h := InitialHeading();
    var c := Cursor(origin, h, []);
    var a := advance(origin, h);
    assert Run(c, "F", turn, advance) == Trace(Cursor(a, h, []), [Segment(origin, a)]) by {
      RunSnoc(c, [], 'F', turn, advance);
      assert [] + ['F'] == "F";
    }
    RunSnoc(c, "F", 'F', turn, advance);
    assert "F" + ['F'] == "FF";
  }

  /** An unmatched `]` is ignored: `F]F` draws what `FF` draws. */
  lemma StrayCloseIgnored<P>(origin: P, turn: real, advance: (P, real) -> P)
    ensures Interpret("F]F", turn, advance, origin) == Interpret("FF", turn, advance, origin)
    ensures |Interpret("F]F", turn, advance, origin)| == 2
  {
    StrayCloseRun(origin, turn, advance);
    StraightRun(origin, turn, advance);
  }
}

=== FILE: turtle.dfy ===
/** The turtle interpreter of the L-system viewer: the character loop of
    `LSystemWidget.paintEvent` in Number_8.py. Positions are abstract: a
    position type `P` and a caller-supplied `advance`, which moves a
    position one step along a heading, stand for the source's cos/sin
    arithmetic and its generation-dependent step length. Headings are
    degrees, kept exact. */
module Turtle {
  import opened Wrappers
  import Grammar

  /** A saved cursor: what `[` pushes, as the source's `(x, y, angle)`. */
  datatype Pose<P> = Pose(pos: P, heading: real)

  /** The interpreter's state: position, heading and the branch stack,
      whose top is the last element. */
  datatype Cursor<P> = Cursor(pos: P, heading: real, stack: seq<Pose<P>>)

  /** One `drawLine` call. */
  datatype Segment<P> = Segment(from: P, to: P)

  /** A cursor together with the segments drawn so far. */
  datatype Trace<P> = Trace(cursor: Cursor<P>, segments: seq<Segment<P>>)

  /** The source starts pointing up: -90 degrees with y growing downwards. */
  function InitialHeading(): real {
    -90.0
  }

  predicate IsDraw(ch: char) {
    ch == 'F' || ch == 'G'
  }

  /** The characters the interpreter reacts to; all others are ignored. */
  predicate IsCommand(ch: char) {
    IsDraw(ch) || ch == 'f' || ch == '+' || ch == '-' || ch == '[' || ch == ']'
  }

  /** The effect of one character. Only `F`/`G` draw, and they draw from
      the old position to the new one; `f` moves without drawing; `+`/`-`
      turn; `[` pushes the pose; `]` pops it back when the stack is
      non-empty and otherwise does nothing; any other character does
      nothing. */
  function Step<P>(c: Cursor<P>, ch: char, turn: real, advance: (P, real) -> P): (r: Trace<P>)
    ensures |r.segments| == (if IsDraw(ch) then 1 else 0)
    ensures IsDraw(ch) ==> r.segments[0] == Segment(c.pos, r.cursor.pos)
    ensures IsDraw(ch) || ch == 'f' ==>
              r.cursor == c.(pos := advance(c.pos, c.heading))
    ensures ch == '+' || ch == '-' ==>
              r.cursor.pos == c.pos && r.cursor.stack == c.stack
              && r.cursor.heading == c.heading + (if ch == '+' then turn else -turn)
    ensures ch == '[' ==>
              r.cursor == c.(stack := c.stack + [Pose(c.pos, c.heading)])
    ensures ch == ']' && |c.stack| > 0 ==>
              && r.cursor.stack == c.stack[..|c.stack| - 1]
              && Pose(r.cursor.pos, r.cursor.heading) == c.stack[|c.stack| - 1]
    ensures (ch == ']' && |c.stack| == 0) || !IsCommand(ch) ==> r.cursor == c
  {
    if IsDraw(ch) then
      var to := advance(c.pos, c.heading);
      Trace(c.(pos := to), [Segment(c.pos, to)])
    else if ch == 'f' then
      Trace(c.(pos := advance(c.pos, c.heading)), [])
    else if ch == '+' then
      Trace(c.(heading := c.heading + turn), [])
    else if ch == '-' then
      Trace(c.(heading := c.heading - turn), [])
    else if ch == '[' then
      Trace(c.(stack := c.stack + [Pose(c.pos, c.heading)]), [])
    else if ch == ']' && |c.stack| > 0 then
      var top := c.stack[|c.stack| - 1];
      Trace(Cursor(top.pos, top.heading, c.stack[..|c.stack| - 1]), [])
    else
      Trace(c, [])
  }

  /** Interpreting `s` from cursor `c`: one left-to-right pass. */
  function Run<P>(c: Cursor<P>, s: string, turn: real, advance: (P, real) -> P): Trace<P> {
    if s == [] then Trace(c, [])
    else
      var t := Run(c, s[..|s| - 1], turn, advance);
      var u := Step(t.cursor, s[|s| - 1], turn, advance);
      Trace(u.cursor, t.segments + u.segments)
  }

  /** The segments the source draws for a generation string. */
  function Interpret<P>(s: string, turn: real, advance: (P, real) -> P, origin: P): (r: seq<Segment<P>>)
    ensures |r| == CountDraws(s)
  {
    SegmentCount(Cursor(origin, InitialHeading(), []), s, turn, advance);
    Run(Cursor(origin, InitialHeading(), []), s, turn, advance).segments
  }

  /** The number of drawing characters. */
  function CountDraws(s: string): nat {
    if s == [] then 0 else CountDraws(s[..|s| - 1]) + (if IsDraw(s[|s| - 1]) then 1 else 0)
  }

  /** Bracket depth: opening minus closing brackets. */
  function Depth(s: string): int {
    if s == [] then 0
    else Depth(s[..|s| - 1]) + (if s[|s| - 1] == '[' then 1 else if s[|s| - 1] == ']' then -1 else 0)
  }

  /** No prefix closes more brackets than it opens. */
  predicate NoUnmatchedClose(s: string) {
    s == [] || (NoUnmatchedClose(s[..|s| - 1]) && Depth(s) >= 0)
  }

  /** Exactly one segment per `F` or `G`, whatever else the string holds. */
  lemma {:induction false} SegmentCount<P>(c: Cursor<P>, s: string, turn: real, advance: (P, real) -> P)
    ensures |Run(c, s, turn, advance).segments| == CountDraws(s)
  {
    if s != [] {
      SegmentCount(c, s[..|s| - 1], turn, advance);
    }
  }

  /** Interpreting a concatenation continues from where the first part
      left the cursor, and the drawings are concatenated. */
  lemma {:induction false} RunAppend<P>(c: Cursor<P>, a: string, b: string, turn: real, advance: (P, real) -> P)
    ensures var ta := Run(c, a, turn, advance);
      var tb := Run(ta.cursor, b, turn, advance);
      Run(c, a + b, turn, advance) == Trace(tb.cursor, ta.segments + tb.segments)
    decreases |b|
  {
    if b == [] {
      assert a + b == a;
    } else {
      var b' := b[..|b| - 1];
      var ab := a + b;
      var ta := Run(c, a, turn, advance);
      var tb' := Run(ta.cursor, b', turn, advance);
      var u := Step(tb'.cursor, b[|b| - 1], turn, advance);
      assert Run(c, ab, turn, advance) == Trace(u.cursor, (ta.segments + tb'.segments) + u.segments) by {
        assert ab[..|ab| - 1] == a + b' && ab[|ab| - 1] == b[|b| - 1];
        RunAppend(c, a, b', turn, advance);
      }
      assert Run(ta.cursor, b, turn, advance) == Trace(u.cursor, tb'.segments + u.segments);
      assert (ta.segments + tb'.segments) + u.segments == ta.segments + (tb'.segments + u.segments);
    }
  }

  /** Stack discipline: when no `]` is unmatched, the stack grows by the
      bracket depth and the entries below the starting top are never
      touched. */
  lemma {:induction false} StackDiscipline<P>(c: Cursor<P>, s: string, turn: real, advance: (P, real) -> P)
    requires NoUnmatchedClose(s)
    ensures var st := Run(c, s, turn, advance).cursor.stack;
      |st| == |c.stack| + Depth(s) && st[..|c.stack|] == c.stack
  {
    if s != [] {
      var init := s[..|s| - 1];
      StackDiscipline(c, init, turn, advance);
      var t := Run(c, init, turn, advance).cursor;
      var ch := s[|s| - 1];
      var st := Step(t, ch, turn, advance).cursor.stack;
      if ch == '[' {
        assert st[..|c.stack|] == t.stack[..|c.stack|];
      } else if ch == ']' {
        assert |t.stack| > |c.stack|;
        assert st[..|c.stack|] == t.stack[..|c.stack|];
      }
    }
  }

  /** A balanced branch `[w]` returns the turtle to exactly where it was:
      same position, heading and stack. */
  lemma BranchRestores<P>(c: Cursor<P>, w: string, turn: real, advance: (P, real) -> P)
    requires NoUnmatchedClose(w) && Depth(w) == 0
    ensures Run(c, "[" + w + "]", turn, advance).cursor == c
  {
    var open := Step(c, '[', turn, advance).cursor;
    assert Run(c, "[", turn, advance).cursor == open by {
      assert "["[..0] == [];
    }
    RunAppend(c, "[", w, turn, advance);
    StackDiscipline(open, w, turn, advance);
    var inner := Run(open, w, turn, advance).cursor;
    assert inner.stack == open.stack;
    RunAppend(c, "[" + w, "]", turn, advance);
    assert Run(inner, "]", turn, advance).cursor == Step(inner, ']', turn, advance).cursor by {
      assert "]"[..0] == [];
    }
  }

  /** The source's loop, with the stack as a list and `]` on an empty
      stack ignored. It draws what `Interpret` describes: one segment per
      `F`/`G`. */
  method Draw<P>(s: string, turn: real, advance: (P, real) -> P, origin: P) returns (segments: seq<Segment<P>>)
    ensures segments == Interpret(s, turn, advance, origin)
    ensures |segments| == CountDraws(s)
  {
    var start := Cursor(origin, InitialHeading(), []);
    var pos := origin;
    var heading := InitialHeading();
    var stack: seq<Pose<P>> := [];
    segments := [];
    var i := 0;
    while i < |s|
      invariant 0 <= i <= |s|
      invariant Run(start, s[..i], turn, advance) == Trace(Cursor(pos, heading, stack), segments)
    {
      var ch := s[i];
      if ch == 'F' || ch == 'G' {
        var next := advance(pos, heading);
        segments := segments + [Segment(pos, next)];
        pos := next;
      } else if ch == 'f' {
        pos := advance(pos, heading);
      } else if ch == '+' {
        heading := heading + turn;
      } else if ch == '-' {
        heading := heading - turn;
      } else if ch == '[' {
        stack := stack + [Pose(pos, heading)];
      } else if ch == ']' {
        if |stack| > 0 {
          var top := stack[|stack| - 1];
          pos, heading, stack := top.pos, top.heading, stack[..|stack| - 1];
        }
      }
      assert s[..i + 1][..i] == s[..i];
      i := i + 1;
    }
    assert s[..|s|] == s;
    SegmentCount(start, s, turn, advance);
  }

  /** `paintEvent`: nothing is drawn when no system is set or its current
      string is empty; otherwise the current string is interpreted with
      the system's turn angle. */
  method Paint<P>(sys: Option<Grammar.LSystem>, advance: (P, real) -> P, origin: P) returns (segments: seq<Segment<P>>)
    ensures sys.None? ==> segments == []
    ensures sys.Some? ==> segments == Interpret(sys.value.currentString, sys.value.angle, advance, origin)
    ensures sys.Some? ==> |segments| == CountDraws(sys.value.currentString)
  {
    if sys.None? || sys.value.currentString == [] {
      segments := [];
      if sys.Some? {
        SegmentCount(Cursor(origin, InitialHeading(), []), sys.value.currentString, sys.value.angle, advance);
      }
    } else {
      segments := Draw(sys.value.currentString, sys.value.angle, advance, origin);
    }
  }
}

=== FILE: wrappers.dfy ===
/** Small failure-carrying datatypes shared by the models. */
module Wrappers {

  /** A value that may be absent (Python's `None`). */
  datatype Option<T> = None | Some(value: T)

  /** Either a computed value or an error. */
  datatype Result<T, E> = Success(value: T) | Failure(error: E)

  /** The state an operation leaves behind, together with the error it
      reported, if any. Used for the source's methods that mutate their
      object and may show an error message part way through. */
  datatype Reported<S, E> = Reported(state: S, error: Option<E>)
}
